=== FILE: README.md ===
# Merge sort and quick sort, instrumented and plain

This project models the sorting core of DAA_Project, a sorting visualizer with reference sort programs. The core has three parts.

- **The visualizer's instrumented sorts** (`src/components/SortingVisualizer.tsx`). These are a top-down merge sort split at `floor(length / 2)` and a quick sort with the Lomuto partition. Both count comparisons and swaps, and both record a trace of snapshot steps (`AlgorithmStep`) inside a result record (`SortingData`).
- **The replay controls of the animation panel** (`src/components/SortingAnimation.tsx`). These form a state machine over the current step index and the playing flag, plus the step lookup `getStepData`.
- **The reference sorts of the C, Java and C++ programs** (`sorting_algorithms.c`, `SortingAlgorithms.java`, `sorting_algorithms.cpp`). Each is an in-place merge sort over `[left, right]` and a Lomuto quick sort over `[low, high]`.

Modules:

- `SeqSort` holds the shared reference definitions: `Merge`, `MergeSort` and sortedness. It proves that `MergeSort` sorts and permutes its input, and that a sorted permutation is unique.
- `Stability` holds the same merge and merge sort on values tagged with their input position. It proves the merge sort stable.
- `Trace` holds the step and result records, plus the invariants a trace keeps.
- `MergeSortTrace` and `QuickSortTrace` hold the instrumented sorts. The source's closures share mutable variables; here those variables travel as one `State` value that each step takes and gives back.
- `RunDriver` holds `handleRunAlgorithms`.
- `ReplayCursor` holds the animation panel's controls.
- `Lomuto` holds the array side of the partition, shared by both quick sorts.
- `ArraySorts` holds the C, Java and C++ routines, which are identical line for line. They are written once, with the C line numbers cited and the Java and C++ ranges named beside them.

The in-place routines are methods over `seq<int>`. Each takes the array's contents before the call and returns the contents after it, and its loops are the source's loops. "Only `arr[left..right]` changes" is stated as `SameOutside(before, after, left, right + 1)`.

Two facts about the code that shape the model:

- `getStepData` does not clamp an out-of-range index to the nearest step. When the trace is empty or holds no step at the index, it falls back to the whole result record. `ReplayCursor.GetStepData` models this fallback.
- The sorts do not validate their input, and no sort has an error path, so none is modelled.

The step index `currentStep` belongs to the visualizer and is passed to the animation panel, while the playing flag belongs to the panel. A new run installs new traces and resets neither of them. So a second run with a shorter trace can leave the index past the end of the trace on display, and the panel then shows the whole record. `ReplayCursor.Session` models runs and controls together; `ReplayCursor.ShorterRunFallsBack` and `ReplayCursor.BackOntoTrace` state what happens. The panel always shows the merge-sort trace, because nothing in the code switches its `activeAlgorithm`.

The visualizer's quick sort takes the copy its snapshots show (line 162) and never writes to it again. The partitions rearrange a second copy (lines 225-226). So every quick-sort snapshot shows the unsorted input, and the model keeps this.

## Model

| member | source | states |
|---|---|---|
| MergeSortTrace.MergeSortRun | src/components/SortingVisualizer.tsx:66-154 | The result is the merge sort of the input, so it is sorted and a permutation. The swap count is 0. The trace opens with a "Starting" complete step showing the input and closes with a "Complete" step showing the sorted array and the final totals; these are its only two complete steps. Every snapshot in the trace, including those taken mid-sort, shows a rearrangement of the input. There is one compare step per comparison and `n - 1` merge steps. An input of length 0 or 1 compares nothing and records exactly the two complete steps. |
| MergeSortTrace.SortRange | src/components/SortingVisualizer.tsx:128-139 | The slice handed in must be the part of the working array at `startIdx`, as it is for the call at line 142 and both calls at lines 135-136. The recursive sort returns the merge sort of its slice, and that result ends up written at `startIdx..startIdx + len` of the working array. A slice of at most one element leaves the state untouched. Nothing outside the range changes, and the working array keeps its elements. The trace only grows and stays valid, by `len - 1` merge steps, and every snapshot in it shows a rearrangement of the working array's elements. |
| MergeSortTrace.MergeRun | src/components/SortingVisualizer.tsx:88-126 | The two runs must lie side by side in the working array at `startIdx`. `merge` returns the stable merge of the two runs and writes it over them, changing nothing else, so the working array keeps its elements. A merge with an empty run compares nothing; otherwise it compares between `min(|left|, |right|)` and `|left| + |right| - 1` times. It appends one compare step per comparison, each a snapshot of the working array as it was before the merge, highlighting a position of the left run and one of the right run as absolute positions. It then appends one merge step, a snapshot of the updated array highlighting exactly the written range. Every snapshot of the trace still shows the working array's elements. |
| MergeSortTrace.HeadToHead | src/components/SortingVisualizer.tsx:97-111 | The head-to-head loop stops when one run is exhausted, counting and recording one comparison per element emitted. Every step it records is a snapshot of the working array as it was on entry, because the write-back comes after the loop. Each compares a position in `startIdx..startIdx + |left|` with one in `startIdx + |left|..startIdx + |left| + |right|`: absolute positions, not positions within the runs. What it emitted, followed by both leftovers, is the merge of the runs, so the leftover concat adds no comparison. |
| MergeSortTrace.RecordCompare | src/components/SortingVisualizer.tsx:98-102 | Counting one comparison adds exactly one to the count. Recording it appends exactly one step to the trace: a snapshot of the unchanged working array with the new count, 0 swaps and kind compare, highlighting `[startIdx + i, startIdx + |left| + j]`. The loop's bookkeeping is kept, and the new step compares across the two runs. |
| MergeSortTrace.AddStepValid | src/components/SortingVisualizer.tsx:73-86 | `addStep` after counting a comparison, or for a merge, keeps the trace consistent and only appends to it: snapshots are full copies, highlights are in range and the counters are monotone. |
| MergeSortTrace.StartAndSort | src/components/SortingVisualizer.tsx:141-142 | After the "Starting" step and the recursive sort of a copy of the input, the working array holds the merge sort of the input. The trace opens with the "Starting" snapshot of the input, is valid and shows only rearrangements of the input, and holds `n - 1` merge steps. An input of length 0 or 1 records nothing after the first step. |
| MergeSortTrace.SortHalves | src/components/SortingVisualizer.tsx:134-136 | The two recursive calls on a slice of two or more: the left half sorted at `startIdx`, then the right half at `startIdx + mid`. Afterwards the range holds the two sorted halves side by side. Nothing outside it has changed, the elements are kept, and the trace has grown by `len - 2` merge steps and shows only rearrangements of the working array. |
| MergeSortTrace.SortRightHalf | src/components/SortingVisualizer.tsx:136 | Once the left half is sorted in place, sorting the right half at `startIdx + mid` leaves the sorted left half where it was, next to the sorted right half. The frame, the elements and the snapshots compose over both calls. |
| MergeSortTrace.ContinuesTrans | src/components/SortingVisualizer.tsx:135-138 | Two successive calls that each change only their own range, keep the elements and only append valid snapshots of them compose into one such call over a range covering both. |
| MergeSortTrace.MergeKeepsElements | src/components/SortingVisualizer.tsx:113-118 | Writing the merge of two runs back over the range that held them keeps the working array's elements. |
| MergeSortTrace.MergeSnapshots | src/components/SortingVisualizer.tsx:97-124 | After a merge every snapshot still shows the working array's elements: the compare steps show the array as it was, and the merge step the array with the merged run written back. |
| MergeSortTrace.SnapshotsGrow | src/components/SortingVisualizer.tsx:78-79 | A trace that grows only by snapshots of rearrangements of the same elements keeps showing only rearrangements of them. |
| MergeSortTrace.CompareStep | src/components/SortingVisualizer.tsx:98-102 | Counting one more comparison and appending its step keeps the loop's bookkeeping. The trace stays valid and only grows, the working array is untouched, the count and the trace both grow by one, and no merge step is added. |
| MergeSortTrace.ComparesPush | src/components/SortingVisualizer.tsx:99-102 | Appending a compare step at `[startIdx + i, startIdx + nl + j]`, with `i` inside the left run and `j` inside the right run, as a snapshot of the unchanged working array, keeps every step from a given position on a cross-run comparison showing that array. |
| QuickSortTrace.QuickSortRun | src/components/SortingVisualizer.tsx:157-238 | The result is sorted and a permutation of the input. Every snapshot shows the input. The first and last steps are the "Starting" and "Complete" complete steps, and the last carries the final totals. There is one compare step per comparison and one swap step per swap. An input of length 0 or 1 records only the two complete steps with zero counts. A sorted input of length `n` costs `Pairs(n)` comparisons and `n - 1` swaps. |
| QuickSortTrace.SortWhole | src/components/SortingVisualizer.tsx:224-226 | After the starting step and the recursive sort over `0..n - 1`, the array is the sorted input and equal to its merge sort. The trace begins with the starting step, and for an input of at most one element nothing else happens. A sorted input costs `Pairs(n)` comparisons and `n - 1` swaps. |
| QuickSortTrace.PairsClosedForm | src/components/SortingVisualizer.tsx:185-186 | `Pairs(m)` is `m(m-1)/2`. This is the comparison count of quick sort on sorted input, because each partition of `m` elements scans `m - 1`, finds the pivot largest and leaves `m - 1` elements to sort. |
| QuickSortTrace.QuickSortRec | src/components/SortingVisualizer.tsx:212-222 | A range with `low >= high` leaves the state as it is. Otherwise only `arr[low..high]` is rearranged, and it ends sorted. The counters never decrease. An already sorted range is left as it is, costing `Pairs(m)` comparisons and `m - 1` swaps for `m` elements. |
| QuickSortTrace.PartitionRun | src/components/SortingVisualizer.tsx:179-210 | The pivot `arr[high]` lands at the returned `p`, which is `low` plus the number of scanned elements at most the pivot. The range is at most the pivot before `p` and above it after `p`. Only `arr[low..high]` is permuted, and an already partitioned range is untouched. Comparisons grow by `high - low`; swaps grow by the displaced elements plus one for the pivot placement. One partition step is recorded. |
| QuickSortTrace.ScanAndPlace | src/components/SortingVisualizer.tsx:185-209 | The scan loop and the pivot exchange after the partition step. The pivot `arr[high]` lands at the returned `p`, which is `low` plus the number of scanned elements at most the pivot; the range is at most the pivot before `p` and above it after. Only `arr[low..high]` is permuted, and an already partitioned range is untouched. Comparisons grow by `high - low` and swaps by the displaced elements plus one. The trace only grows, stays valid and gains no partition step. |
| QuickSortTrace.ScanRound | src/components/SortingVisualizer.tsx:185-200 | One scan round keeps the loop state: the boundary counts the elements at most the pivot and splits the scanned part. One comparison is counted and recorded per element, and one swap per element at most the pivot that lies past the boundary. No swap is recorded when the boundary is the element itself. |
| QuickSortTrace.Displaced | src/components/SortingVisualizer.tsx:192-198 | The number of scan swaps never exceeds the number of elements at most the pivot, and it is 0 when every element is at most the pivot. |
| QuickSortTrace.DisplacedPush | src/components/SortingVisualizer.tsx:192-198 | Scanning one more element adds a swap exactly when that element is at most the pivot and an earlier element was above it (`i !== j`). |
| QuickSortTrace.SnapshotsConsistent | src/components/SortingVisualizer.tsx:162-177 | A trace of quick-sort snapshots is consistent and every one of its snapshots equals the input, because the snapshotted copy is never written. |
| QuickSortTrace.RecordSwap | src/components/SortingVisualizer.tsx:202-207 | The pivot placement exchanges the two positions, adds one swap and keeps comparisons. The trace so far is kept, and exactly one swap step is appended, carrying the new counts and highlighting the two positions. The scan's swap at lines 194-198 uses the same member. |
| QuickSortTrace.RecordComparison | src/components/SortingVisualizer.tsx:186-190 | A comparison with the pivot adds one comparison and leaves the array and the swaps alone. The trace so far is kept, and exactly one compare step is appended, carrying the new count and highlighting `[j, high]`. |
| RunDriver.RunAlgorithms | src/components/SortingVisualizer.tsx:240-255 | Both runs on one array return the same sorted permutation of it, because a sorted permutation is unique. The merge run counts no swap and closes on the sorted array, while every quick-sort snapshot shows the initial array. |
| Lomuto.ScanArrayRound | sorting_algorithms.c:76-87 | One scan step keeps the partition invariant: the boundary equals `low - 1` plus the count of scanned elements at most the pivot, elements up to it are at most the pivot, those after are above it, and only the scanned part was rearranged. |
| Lomuto.PlacePivot | sorting_algorithms.c:89-94 | The final exchange puts the pivot at `i + 1`, the returned position, with the partition split around it. Only the range is permuted, and an already partitioned range is unchanged. |
| Lomuto.SelfSwapHarmless | sorting_algorithms.c:79-86 | Exchanging an element with itself (the C, Java and C++ partitions do it) has the effect of the visualizer's skipped swap (`i !== j`), so both partitions rearrange the array alike. |
| Lomuto.JoinSides | sorting_algorithms.c:98-109 | After partitioning, sorting the left side and the right side in place sorts the whole range, and only the range changes. |
| ArraySorts.Merge | sorting_algorithms.c:6-52 | Only `arr[left..right]` is written, and it receives the stable merge (the left run wins ties) of `arr[left..mid]` and `arr[mid+1..right]`. The array keeps its elements, and two sorted runs become a sorted range. Java 21-61 and C++ 27-73 are the same routine. |
| ArraySorts.CopyRange | sorting_algorithms.c:15-18 | Each copy loop fills its temporary run with exactly the slice of `arr` it names: `arr[left..mid]` for `L`, `arr[mid+1..right]` for `R`. |
| ArraySorts.HeadToHead | sorting_algorithms.c:21-35 | The head-to-head loop ends with one run exhausted. It has written, into `arr[left..k)` and nowhere else, the first `k - left` elements of the stable merge of the two runs. |
| ArraySorts.DrainLeft | sorting_algorithms.c:37-43 | Copying the rest of `L` exhausts it and extends the written part by exactly those elements, which are the next elements of the merge. |
| ArraySorts.DrainRight | sorting_algorithms.c:45-51 | With `L` exhausted, copying the rest of `R` completes the merge over `arr[left..right]`. |
| ArraySorts.MergedRange | sorting_algorithms.c:21-51 | Writing the merge of the two runs over the range that held them keeps the array's elements. |
| ArraySorts.MergedRangeSorted | sorting_algorithms.c:21-51 | Two sorted runs merge into a sorted range. |
| ArraySorts.Midpoint | sorting_algorithms.c:59 | For `left < right`, the midpoint lies in `[left, right)`, so both recursive ranges are strictly smaller. The left half holds `ceil(len / 2)` elements. Java 9 and C++ 15 are the same. |
| ArraySorts.MergeSort | sorting_algorithms.c:55-68 | `arr[left..right]` ends sorted and a permutation of its prior contents, nothing outside it changes, and a range with `left >= right` is untouched. Java 7-18 and C++ 11-24 are the same. |
| ArraySorts.Partition | sorting_algorithms.c:71-95 | The returned `p` lies in `[low, high]` and equals `low` plus the count of elements at most the pivot. `arr[p]` is the original `arr[high]`; the range is at most the pivot before `p` and above it after. Only `arr[low..high]` is permuted. Java 76-97 and C++ 90-110 are the same. |
| ArraySorts.Scan | sorting_algorithms.c:74-87 | The scan loop ends with the boundary `i` at `low - 1` plus the number of elements of `arr[low..high-1]` at most the pivot. The scanned part is split at `i`, and only it was rearranged, not at all while nothing above the pivot had been seen. The array keeps its elements. |
| ArraySorts.ScanRound | sorting_algorithms.c:78-86 | One round of the scan keeps that state for one more element. |
| ArraySorts.QuickSort | sorting_algorithms.c:98-109 | `arr[low..high]` ends sorted and a permutation of its prior contents, nothing outside it changes, and `low >= high` leaves the array untouched. Java 64-73 and C++ 76-87 are the same. |
| ArraySorts.CopyArray | sorting_algorithms.c:130-136 | `dest[0..size)` becomes `source[0..size)` and the rest of `dest` is kept. `source` is an input value, so it cannot change. |
| ArraySorts.CopyOf | SortingAlgorithms.java:119-121 | The copy has the source's length and elements. |
| ArraySorts.SortCopies | sorting_algorithms.c:151-165 | Sorting two copies of one input over the whole array, one with each algorithm, gives the same array: the sorted permutation of the input, equal to the visualizer's merge sort, although the split points differ. |
| Stability.MergeSortIsStable | src/components/SortingVisualizer.tsx:104-110 | Tag each element with its input position and run the same merge sort. The values of the result are `MergeSort(s)`, each result position holds the input element its tag names, and every input position appears once. Equal values keep their input order. |
| Stability.TMergeStable | sorting_algorithms.c:24-28 | Merging two stably sorted runs, the left from earlier input positions than the right, with ties taken from the left gives a stably sorted run. |
| SeqSort.MergeSortSorts | src/components/SortingVisualizer.tsx:128-142 | The floor-split merge sort returns a sorted permutation of its input. |
| SeqSort.MergeSorted | src/components/SortingVisualizer.tsx:97-113 | The head-to-head merge of two sorted runs is sorted. |
| SeqSort.SortedUnique | sorting_algorithms.c:55-109 | Two sorted permutations of the same elements are equal, which is why merge sort and quick sort agree on every input. |
| ReplayCursor.HandleNext | src/components/SortingAnimation.tsx:74-78 | The step index goes up by one exactly when it is below the last step. Otherwise the cursor is unchanged. The playing flag is never touched. |
| ReplayCursor.HandlePrevious | src/components/SortingAnimation.tsx:68-72 | The step index goes down by one exactly when it is above 0. Otherwise the cursor is unchanged. |
| ReplayCursor.HandleReset | src/components/SortingAnimation.tsx:63-66 | The cursor returns to step 0 with auto-play off. |
| ReplayCursor.HandlePlay | src/components/SortingAnimation.tsx:56-61 | At or past the last step the cursor rewinds to 0; otherwise it keeps its step. The playing flag toggles. |
| ReplayCursor.AutoPlayTick | src/components/SortingAnimation.tsx:35-54 | The timer changes nothing unless step-by-step mode is on, the panel is playing and the trace is non-empty. Then it advances one step, or at the last step stops playing. |
| ReplayCursor.ReplayInRange | src/components/SortingAnimation.tsx:56-78 | From a cursor on the trace, any sequence of next, previous, reset, play and timer events keeps it on the trace. |
| ReplayCursor.PreviousUndoesNext | src/components/SortingAnimation.tsx:68-78 | Previous undoes next wherever next moves. |
| ReplayCursor.NextUndoesPrevious | src/components/SortingAnimation.tsx:68-78 | Next undoes previous wherever previous moves on the trace. |
| ReplayCursor.NextRepeated | src/components/SortingAnimation.tsx:74-78 | Pressing next `k` times moves `k` steps, stopping at the last step. |
| ReplayCursor.AutoPlayRunsToEnd | src/components/SortingAnimation.tsx:35-54 | While playing, auto-play advances one step per timer event up to the last step, stops playing one event later, and stays put afterwards. |
| ReplayCursor.PlayAtEndReplays | src/components/SortingAnimation.tsx:56-61 | Pressing play at the last step rewinds and replays. The first event shows step 1, and `n` events end on the last step with auto-play off. |
| ReplayCursor.GetStepData | src/components/SortingAnimation.tsx:80-83 | The step under the cursor is shown exactly when the index is a position of the trace. Otherwise, including an empty trace, the whole result record is shown, with no clamping. |
| ReplayCursor.ControlsAlwaysShowAStep | src/components/SortingAnimation.tsx:80-85 | Starting from step 0 of a non-empty trace, with no new run in between, no sequence of controls ever makes the panel fall back to the whole record. |
| ReplayCursor.ShorterRunFallsBack | src/components/SortingVisualizer.tsx:240-255 | The fallback is reachable. After a run with an `m`-step trace and `m - 1` presses of next, a second run with a shorter non-empty trace keeps the index at `m - 1`, where the new trace has no step, so the panel shows the whole record. |
| ReplayCursor.BackOntoTrace | src/components/SortingAnimation.tsx:35-83 | With the index past the end of a non-empty trace, next and the timer leave it there and the whole record stays on screen. Reset and play rewind to the first step. Pressing previous once per surplus step lands on the last step. |
| ReplayCursor.PreviousRepeated | src/components/SortingAnimation.tsx:68-72 | Pressing previous `k` times moves `k` steps back, stopping at step 0. |
| ReplayCursor.SessionStepNonNegative | src/components/SortingAnimation.tsx:56-78 | No mix of controls and new runs ever takes the step index below 0. |

## Left out

- Wall-clock timing (`performance.now`, `clock`, `System.nanoTime`, `std::chrono`) and the `time` field of the result record. These measure elapsed time in floating point.
- Random input generation (`Math.random`, `rand`, `Random`, `mt19937`). The input is a parameter instead.
- `printArray`, the `main` functions' output and the complexity texts. This is I/O. `ArraySorts.SortCopies` keeps the sorting part of `main`.
- `async` and `Promise.all` in `handleRunAlgorithms`. The two sorts share nothing but the input, so they are two independent calls.
- `handleGenerateNewArray`, the initialisation effect and the React state setters. The cursor transitions model the effect of the setters on `(currentStep, isPlaying)`.
- The step-by-step toggle (`setIsStepByStep`, SortingVisualizer.tsx:308-309) is not an event of `ReplayCursor.Session`. The mode is a fixed parameter of a session. Turning it off hides the controls and stops the timer while `isPlaying` keeps its value; a session with the other mode describes what follows.
- Cancelling the timer (`clearTimeout`) and the animation speed. A timer firing is one `TimerFired` event; at most one timer is pending at a time.
- Rendering: bar heights, colours by step kind, the progress bar. `AlgorithmCode.tsx`, `ComplexityAnalysis.tsx` and `LanguageSelector.tsx` hold static text and widgets.
- Description strings are the `Label` datatype: one constructor per template, carrying the interpolated values, without the text itself.
- JavaScript numbers: array values, indices and counters are IEEE doubles in the visualizer and are modelled as `int` and `nat`. The program only generates integers from 1 to 100 and counts with `++`, so no rounding occurs for the array sizes it offers.
- Fixed-width integers: values and indices are unbounded, so C/Java `int` overflow in `left + (right - left) / 2` is not modelled. For arrays within `int` range the midpoint form cannot overflow.
- ArraySorts.MergeSort: states sorted, permuted and framed for every range, but equality with `SeqSort.MergeSort` of the range only for the whole array (in `ArraySorts.SortCopies`). Range-level equality follows from `SeqSort.SortedRangeIsMergeSort`.
- ArraySorts.QuickSort: the same as `ArraySorts.MergeSort`. Equality with the reference sort is stated for the whole array in `ArraySorts.SortCopies`.
- ArraySorts.CopyArray: arrays are values, so "`source` is unchanged" holds by construction and is not a separate clause.
- MergeSortTrace.MergeRun: bounds the comparisons of one merge between the shorter run's length and the total minus one, rather than giving the exact count. The exact count is the position at which one run is exhausted, which `MergeSortTrace.HeadToHead` states.

=== FILE: array_sorts.dfy ===
/** The reference sorts of the C, Java and C++ programs, which are the same
    routines line for line: merge sort over the inclusive range
    `[left, right]`, split at `left + (right - left) / 2`, with a merge
    through two temporary runs, and quick sort over `[low, high]` with the
    Lomuto partition, which (unlike the visualizer's) exchanges even when the
    boundary is the scanned element itself.

    The sorts work in place. Each routine here takes the array's contents
    before the call and returns its contents after it; the loops are those of
    the source, writing one element per round. */
module ArraySorts {
  import SeqSort
  import opened Lomuto

  /** A copy loop: `count` elements of `src` from position `from` on, as the
      source fills its temporary runs. */
  method CopyRange(src: seq<int>, from: int, count: int) returns (r: seq<int>)
    requires 0 <= from && 0 <= count && from + count <= |src|
    ensures r == src[from..from + count]
  {
    r := [];
    var k := 0;
    while k < count
      invariant 0 <= k <= count && r == src[from..from + k]
    {
      r := r + [src[from + k]];
      k := k + 1;
    }
  }

  /** The loop state of `merge` after writing `arr[left..k)`: only that part
      of the array has been written, and it holds the first `k - left`
      elements of the merge of the temporary runs `l` and `r`, whose heads
      are now at `i` and `j`. */
  predicate Merging(a: seq<int>, b: seq<int>, l: seq<int>, r: seq<int>, left: int, i: int, j: int, k: int) {
    && 0 <= left && left + |l| + |r| <= |a|
    && 0 <= i <= |l| && 0 <= j <= |r| && k == left + i + j
    && SeqSort.SameOutside(a, b, left, k)
    && SeqSort.Emitted(l, r, i, j, b[left..k])
  }

  /** Writing the head of the left run at `k`, when it is the next element
      of the merge, keeps the loop state. */
  lemma TakeLeft(a: seq<int>, b: seq<int>, l: seq<int>, r: seq<int>, left: int, i: int, j: int, k: int)
    requires Merging(a, b, l, r, left, i, j, k)
    requires i < |l| && (j == |r| || l[i] <= r[j])
    ensures Merging(a, b[k := l[i]], l, r, left, i + 1, j, k + 1)
  {
    assert b[k := l[i]][left..k + 1] == b[left..k] + [l[i]];
    if j < |r| {
      SeqSort.MergeRound(l, r, i, j, b[left..k]);
    } else {
      SeqSort.MergeDrain(l, r, i, j, b[left..k]);
    }
  }

  /** Writing the head of the right run at `k`, when it is the next element
      of the merge, keeps the loop state. */
  lemma TakeRight(a: seq<int>, b: seq<int>, l: seq<int>, r: seq<int>, left: int, i: int, j: int, k: int)
    requires Merging(a, b, l, r, left, i, j, k)
    requires j < |r| && (i == |l| || r[j] < l[i])
    ensures Merging(a, b[k := r[j]], l, r, left, i, j + 1, k + 1)
  {
    assert b[k := r[j]][left..k + 1] == b[left..k] + [r[j]];
    if i < |l| {
      SeqSort.MergeRound(l, r, i, j, b[left..k]);
    } else {
      SeqSort.MergeDrain(l, r, i, j, b[left..k]);
    }
  }

  /** `merge(arr, left, mid, right)`: copies `arr[left..mid]` and
      `arr[mid+1..right]` into temporary runs, merges them head to head back
      into `arr[left..right]` (the left run wins ties), then copies what is
      left of the left run and of the right run.

      Only `arr[left..right]` is written; it receives the stable merge of the
      two runs, so the array keeps its elements, and two sorted runs become
      one sorted range. */
  method Merge(a: seq<int>, left: int, mid: int, right: int) returns (b: seq<int>)
    requires 0 <= left <= mid <= right < |a|
    ensures SeqSort.SameOutside(a, b, left, right + 1)
    ensures b[left..right + 1] == SeqSort.Merge(a[left..mid + 1], a[mid + 1..right + 1])
    ensures multiset(b) == multiset(a)
    ensures SeqSort.SortedBetween(a, left, mid + 1) && SeqSort.SortedBetween(a, mid + 1, right + 1) ==>
      SeqSort.SortedBetween(b, left, right + 1)
  {
    var n1, n2 := mid - left + 1, right - mid;
    var l := CopyRange(a, left, n1);
    var r := CopyRange(a, mid + 1, n2);
    SeqSort.EmittedStart(l, r);
    assert a[left..left] == [];
    var i, j, k, b1 := HeadToHead(a, a, l, r, left);
    var b2 := DrainLeft(a, b1, l, r, left, i, j, k);
    b := DrainRight(a, b2, l, r, left, |l|, j, left + |l| + j);
    MergeDone(a, b, l, r, left);
    assert left + |l| + |r| == right + 1;
    assert b[left..right + 1] == SeqSort.Merge(a[left..mid + 1], a[mid + 1..right + 1]);
    MergedRange(a, b, left, mid, right);
    if SeqSort.SortedBetween(a, left, mid + 1) && SeqSort.SortedBetween(a, mid + 1, right + 1) {
      MergedRangeSorted(a, b, left, mid, right);
    }
  }

  /** The head-to-head loop of `merge`: while both runs have elements, write
      the smaller head at `k`, the left one on a tie. */
  method HeadToHead(a: seq<int>, b0: seq<int>, l: seq<int>, r: seq<int>, left: int)
    returns (i: int, j: int, k: int, b: seq<int>)
    requires Merging(a, b0, l, r, left, 0, 0, left)
    ensures Merging(a, b, l, r, left, i, j, k) && (i == |l| || j == |r|)
  {
    i, j, k, b := 0, 0, left, b0;
    while i < |l| && j < |r|
      invariant Merging(a, b, l, r, left, i, j, k)
      decreases |l| + |r| - i - j
    {
      if l[i] <= r[j] {
        TakeLeft(a, b, l, r, left, i, j, k);
        b := b[k := l[i]];
        i := i + 1;
      } else {
        TakeRight(a, b, l, r, left, i, j, k);
        b := b[k := r[j]];
        j := j + 1;
      }
      k := k + 1;
    }
  }

  /** Copying what is left of the left run. */
  method DrainLeft(a: seq<int>, b0: seq<int>, l: seq<int>, r: seq<int>, left: int, i0: int, j: int, k0: int)
    returns (b: seq<int>)
    requires Merging(a, b0, l, r, left, i0, j, k0) && (i0 == |l| || j == |r|)
    ensures Merging(a, b, l, r, left, |l|, j, left + |l| + j)
  {
    var i, k := i0, k0;
    b := b0;
    while i < |l|
      invariant Merging(a, b, l, r, left, i, j, k) && (i == |l| || j == |r|)
      decreases |l| - i
    {
      TakeLeft(a, b, l, r, left, i, j, k);
      b := b[k := l[i]];
      i := i + 1;
      k := k + 1;
    }
  }

  /** Copying what is left of the right run. */
  method DrainRight(a: seq<int>, b0: seq<int>, l: seq<int>, r: seq<int>, left: int, i: int, j0: int, k0: int)
    returns (b: seq<int>)
    requires Merging(a, b0, l, r, left, i, j0, k0) && i == |l|
    ensures Merging(a, b, l, r, left, |l|, |r|, left + |l| + |r|)
  {
    var j, k := j0, k0;
    b := b0;
    while j < |r|
      invariant Merging(a, b, l, r, left, i, j, k) && i == |l|
      decreases |r| - j
    {
      TakeRight(a, b, l, r, left, i, j, k);
      b := b[k := r[j]];
      j := j + 1;
      k := k + 1;
    }
  }

  /** When the merge loops are done the range holds the whole merge. */
  lemma MergeDone(a: seq<int>, b: seq<int>, l: seq<int>, r: seq<int>, left: int)
    requires Merging(a, b, l, r, left, |l|, |r|, left + |l| + |r|)
    ensures b[left..left + |l| + |r|] == SeqSort.Merge(l, r)
  {
    assert l[|l|..] == [] && r[|r|..] == [];
    assert SeqSort.Merge([], []) == [];
  }

  /** Writing the merge of the two runs of a range over the range keeps the
      array's elements. */
  lemma MergedRange(a: seq<int>, b: seq<int>, left: int, mid: int, right: int)
    requires 0 <= left <= mid <= right < |a|
    requires SeqSort.SameOutside(a, b, left, right + 1)
    requires b[left..right + 1] == SeqSort.Merge(a[left..mid + 1], a[mid + 1..right + 1])
    ensures multiset(b) == multiset(a)
  {
    var l, r, range := a[left..mid + 1], a[mid + 1..right + 1], a[left..right + 1];
    SeqSort.MergeMultiset(l, r);
    assert range == l + r;
    assert multiset(b[left..right + 1]) == multiset(range);
    SeqSort.SpliceMultiset(a, b, left, right + 1);
  }

  /** Writing the merge of two sorted runs of a range over the range sorts
      the range. */
  lemma MergedRangeSorted(a: seq<int>, b: seq<int>, left: int, mid: int, right: int)
    requires 0 <= left <= mid <= right < |a| && |b| == |a|
    requires b[left..right + 1] == SeqSort.Merge(a[left..mid + 1], a[mid + 1..right + 1])
    requires SeqSort.SortedBetween(a, left, mid + 1) && SeqSort.SortedBetween(a, mid + 1, right + 1)
    ensures SeqSort.SortedBetween(b, left, right + 1)
  {
    var l, r := a[left..mid + 1], a[mid + 1..right + 1];
    SeqSort.SortedBetweenSlice(a, left, mid + 1);
    SeqSort.SortedBetweenSlice(a, mid + 1, right + 1);
    SeqSort.MergeSorted(l, r);
    assert SeqSort.Sorted(b[left..right + 1]);
    SeqSort.SortedBetweenSlice(b, left, right + 1);
  }

  /** The split point of `mergeSort`: `left + (right - left) / 2` lies in
      `[left, right)` for a range of two or more, so both halves are smaller
      than the range; the left half gets the middle element of an odd range. */
  function Midpoint(left: int, right: int): (mid: int)
    requires left < right
    ensures left <= mid < right
    ensures mid - left + 1 == (right - left + 2) / 2
  {
    left + (right - left) / 2
  }

  /** `mergeSort(arr, left, right)`: a range of two or more is split at the
      midpoint, both halves are sorted and then merged; a shorter range is
      left alone.

      Only `arr[left..right]` is rearranged (the array keeps its elements),
      and it ends sorted. */
  method MergeSort(a: seq<int>, left: int, right: int) returns (b: seq<int>)
    requires left < right ==> 0 <= left && right < |a|
    ensures SeqSort.SameOutside(a, b, left, right + 1)
    ensures multiset(b) == multiset(a)
    ensures SeqSort.SortedBetween(b, left, right + 1)
    ensures left >= right ==> b == a
    decreases right - left
  {
    if left >= right {
      b := a;
    } else {
      var mid := Midpoint(left, right);
      var b1 := MergeSort(a, left, mid);
      var b2 := MergeSort(b1, mid + 1, right);
      SeqSort.SortedBetweenFrame(b1, b2, left, mid + 1, mid + 1, right + 1);
      b := Merge(b2, left, mid, right);
      SeqSort.SameOutsideTrans(a, b1, b2, left, mid + 1, mid + 1, right + 1, left, right + 1);
      SeqSort.SameOutsideTrans(a, b2, b, left, right + 1, left, right + 1, left, right + 1);
    }
  }

  /** `partition(arr, low, high)`: the Lomuto partition around the pivot
      `arr[high]`, exchanging every element at most the pivot with the
      element after the boundary (itself, when nothing above the pivot has
      been seen), then the pivot with the element after the boundary;
      returns the pivot's final position.

      The pivot lands at the returned `p`, which is `low` plus the number of
      elements of `arr[low..high-1]` at most the pivot; everything before it
      in the range is at most the pivot and everything after it above; only
      the range is rearranged. */
  method Partition(a: seq<int>, low: int, high: int) returns (p: int, b: seq<int>)
    requires 0 <= low <= high < |a|
    ensures low <= p <= high && p == low + SeqSort.CountAtMost(a[low..high], a[high])
    ensures |b| == |a| && b[p] == a[high]
    ensures forall k :: low <= k < p ==> b[k] <= a[high]
    ensures forall k :: p < k <= high ==> a[high] < b[k]
    ensures SeqSort.SameOutside(a, b, low, high + 1)
    ensures multiset(b) == multiset(a)
  {
    var i;
    i, b := Scan(a, low, high);
    PlacePivot(a, b, low, high, i);
    b := SeqSort.Swap(b, i + 1, high);
    p := i + 1;
  }

  /** The scan loop of `partition`: `j` runs from `low` to `high - 1`; an
      element at most the pivot moves the boundary `i` on and is exchanged
      with the element there. */
  method Scan(a: seq<int>, low: int, high: int) returns (i: int, b: seq<int>)
    requires 0 <= low <= high < |a|
    ensures ScannedArray(a, b, low, high, i, high)
  {
    i, b := low - 1, a;
    assert a[low..low] == [];
    var j := low;
    while j <= high - 1
      invariant ScannedArray(a, b, low, high, i, j)
      decreases high - j
    {
      i, b := ScanRound(a, b, low, high, i, j);
      j := j + 1;
    }
  }

  /** One round of the scan at `j`: an element at most the pivot moves the
      boundary on and is exchanged with the element there, itself included. */
  method ScanRound(orig: seq<int>, b: seq<int>, low: int, high: int, i: int, j: int) returns (i': int, b': seq<int>)
    requires ScannedArray(orig, b, low, high, i, j) && j <= high - 1
    ensures ScannedArray(orig, b', low, high, i', j + 1)
  {
    ScanArrayRound(orig, b, low, high, i, j);
    SelfSwapHarmless(b, i, j, orig[high]);
    if b[j] <= orig[high] {
      i' := i + 1;
      b' := SeqSort.Swap(b, i', j);
    } else {
      i', b' := i, b;
    }
  }

  /** `quickSort(arr, low, high)`: partitions a range of two or more and
      sorts the two sides of the pivot; a shorter range is left alone.

      Only `arr[low..high]` is rearranged (the array keeps its elements),
      and it ends sorted. */
  method QuickSort(a: seq<int>, low: int, high: int) returns (b: seq<int>)
    requires low < high ==> 0 <= low && high < |a|
    ensures SeqSort.SameOutside(a, b, low, high + 1)
    ensures multiset(b) == multiset(a)
    ensures SeqSort.SortedBetween(b, low, high + 1)
    ensures low >= high ==> b == a
    decreases high - low
  {
    if low >= high {
      b := a;
    } else {
      var p, b1 := Partition(a, low, high);
      var b2 := QuickSort(b1, low, p - 1);
      b := QuickSort(b2, p + 1, high);
      JoinSides(a, b1, b2, b, low, p, high);
    }
  }

  /** `copyArray(source, dest, size)`: the first `size` elements of `dest`
      become those of `source`; the rest of `dest` is kept. */
  method CopyArray(source: seq<int>, dest: seq<int>, size: int) returns (d: seq<int>)
    requires 0 <= size <= |source| && size <= |dest|
    ensures |d| == |dest|
    ensures d[..size] == source[..size] && d[size..] == dest[size..]
  {
    d := dest;
    var i := 0;
    while i < size
      invariant 0 <= i <= size && |d| == |dest|
      invariant d[..i] == source[..i] && d[i..] == dest[i..]
    {
      d := d[i := source[i]];
      assert d[..i + 1] == d[..i] + [source[i]] by {
        assert source[..i + 1] == source[..i] + [source[i]];
      }
      i := i + 1;
    }
  }

  /** The Java `copyArray(source)`: a new array of the same length holding
      the same elements. */
  method CopyOf(source: seq<int>) returns (r: seq<int>)
    ensures r == source
  {
    r := CopyArray(source, seq(|source|, _ => 0), |source|);
    assert r == r[..|source|] && source == source[..|source|];
  }

  /** The driver of the three programs: sort two copies of the same input,
      one with each algorithm, over the whole array. Both end as the same
      sorted permutation of the input: the visualizer's merge sort of it,
      although the split point here is the upper middle, not the lower. */
  method SortCopies(input: seq<int>) returns (merged: seq<int>, quick: seq<int>)
    ensures merged == quick == SeqSort.MergeSort(input)
    ensures SeqSort.Sorted(merged) && multiset(merged) == multiset(input)
  {
    var c1 := CopyOf(input);
    var c2 := CopyOf(input);
    merged := MergeSort(c1, 0, |input| - 1);
    quick := QuickSort(c2, 0, |input| - 1);
    SeqSort.SortedRangeIsMergeSort(input, merged, 0, |input|);
    SeqSort.SortedRangeIsMergeSort(input, quick, 0, |input|);
    assert merged == merged[0..|input|] && quick == quick[0..|input|];
    assert input == input[0..|input|];
    SeqSort.SortedBetweenSlice(merged, 0, |input|);
  }
}

=== FILE: lomuto.dfy ===
/** The Lomuto partition shared by every quick sort of the repository: the
    last element of the range is the pivot, a boundary `i` starts just before
    the range, and scanning `j` across the range moves every element at most
    the pivot to the front; the pivot is then exchanged into `i + 1`. The
    lemmas here are about arrays only; the sorts add their own counting. */
module Lomuto {
  import SeqSort

  /** The array side of the loop state of `partition(arr, low, high)` after
      scanning `low..j`, where `orig` is the array the partition started from
      and `orig[high]` the pivot: the boundary `i` has moved once per element
      at most the pivot; the scanned part is split at `i` (at most the pivot
      up to `i`, above it after); only the scanned part has been rearranged,
      and not at all while no element above the pivot has been seen. */
  predicate ScannedArray(orig: seq<int>, a: seq<int>, low: int, high: int, i: int, j: int) {
    && 0 <= low <= j <= high < |orig|
    && i == low - 1 + SeqSort.CountAtMost(orig[low..j], orig[high])
    && SeqSort.SameOutside(orig, a, low, j)
    && multiset(a) == multiset(orig)
    && (forall k :: low <= k <= i ==> a[k] <= orig[high])
    && (forall k :: i < k < j ==> orig[high] < a[k])
    && (i == j - 1 ==> a == orig)
  }

  /** What one round of the scan does to the boundary and the array: an
      element at most the pivot moves the boundary and, unless the boundary
      is then the element itself, is exchanged with the element there. */
  function ScanEffect(a: seq<int>, i: int, j: int, pivot: int): (int, seq<int>)
    requires -1 <= i < j < |a|
  {
    if a[j] <= pivot then
      if i + 1 != j then (i + 1, SeqSort.Swap(a, i + 1, j)) else (i + 1, a)
    else (i, a)
  }

  /** Exchanging the element at the boundary's successor even when it is
      the scanned element itself (as the C, Java and C++ partitions do) has
      the effect of skipping that exchange (as the visualizer's does). */
  lemma SelfSwapHarmless(a: seq<int>, i: int, j: int, pivot: int)
    requires -1 <= i < j < |a|
    ensures a[j] <= pivot ==> ScanEffect(a, i, j, pivot) == (i + 1, SeqSort.Swap(a, i + 1, j))
    ensures pivot < a[j] ==> ScanEffect(a, i, j, pivot) == (i, a)
  {
    if a[j] <= pivot && i + 1 == j {
      SeqSort.SwapSelf(a, j);
    }
  }

  /** One round of the scan keeps the array side of the loop state. */
  lemma ScanArrayRound(orig: seq<int>, a: seq<int>, low: int, high: int, i: int, j: int)
    requires ScannedArray(orig, a, low, high, i, j) && j < high
    ensures ScanEffect(a, i, j, orig[high]).0 == low - 1 + SeqSort.CountAtMost(orig[low..j + 1], orig[high])
    ensures ScannedArray(orig, ScanEffect(a, i, j, orig[high]).1, low, high, ScanEffect(a, i, j, orig[high]).0, j + 1)
  {
    var pivot := orig[high];
    assert a[j] == orig[j];
    assert orig[low..j + 1] == orig[low..j] + [orig[j]];
    SeqSort.CountAtMostPush(orig[low..j], orig[j], pivot);
    SeqSort.CountAtMostBound(orig[low..j], pivot);
  }

  /** Once the scan has reached `high`, exchanging the boundary's successor
      with the pivot finishes the partition: the pivot lands at `i + 1`,
      which is `low` plus the number of elements at most the pivot, with the
      smaller-or-equal elements before it and the larger after it; only the
      range has been rearranged, and an already partitioned range not at all. */
  lemma PlacePivot(orig: seq<int>, a: seq<int>, low: int, high: int, i: int)
    requires ScannedArray(orig, a, low, high, i, high)
    ensures var p, b := i + 1, SeqSort.Swap(a, i + 1, high);
      && low <= p <= high && p == low + SeqSort.CountAtMost(orig[low..high], orig[high])
      && b[p] == orig[high]
      && (forall k :: low <= k < p ==> b[k] <= orig[high])
      && (forall k :: p < k <= high ==> orig[high] < b[k])
      && SeqSort.SameOutside(orig, b, low, high + 1)
      && multiset(b) == multiset(orig)
      && (SeqSort.AllAtMost(orig[low..high], orig[high]) ==> b == orig)
  {
    var p, b := i + 1, SeqSort.Swap(a, i + 1, high);
    assert a[high] == orig[high];
    if SeqSort.AllAtMost(orig[low..high], orig[high]) {
      assert p == high;
      assert b == a;
    }
  }

  /** In a sorted range the last element is the largest. */
  lemma SortedPivotIsMax(s: seq<int>, low: int, high: int)
    requires 0 <= low < high < |s| && SeqSort.SortedBetween(s, low, high + 1)
    ensures SeqSort.AllAtMost(s[low..high], s[high])
  {
    forall k | 0 <= k < high - low
      ensures s[low..high][k] <= s[high]
    {
      assert s[low..high][k] == s[low + k];
    }
  }

  /** Sorting both sides of a partitioned range in place sorts the range. */
  lemma JoinSides(a0: seq<int>, a1: seq<int>, a2: seq<int>, a3: seq<int>, low: int, p: int, high: int)
    requires 0 <= low <= p <= high < |a0|
    requires SeqSort.SameOutside(a0, a1, low, high + 1)
    requires a1[p] == a0[high]
    requires forall k :: low <= k < p ==> a1[k] <= a0[high]
    requires forall k :: p < k <= high ==> a0[high] < a1[k]
    requires SeqSort.SameOutside(a1, a2, low, p) && multiset(a2) == multiset(a1)
    requires SeqSort.SortedBetween(a2, low, p)
    requires SeqSort.SameOutside(a2, a3, p + 1, high + 1) && multiset(a3) == multiset(a2)
    requires SeqSort.SortedBetween(a3, p + 1, high + 1)
    ensures SeqSort.SameOutside(a0, a3, low, high + 1)
    ensures SeqSort.SortedBetween(a3, low, high + 1)
  {
    var pivot := a0[high];
    SeqSort.RangeBound(a1, a2, low, p, pivot, true);
    SeqSort.RangeBound(a2, a3, p + 1, high + 1, pivot, false);
    assert SeqSort.SortedBetween(a3, low, p) by {
      assert forall k :: low <= k < p ==> a3[k] == a2[k];
    }
    assert forall k :: low <= k < p ==> a3[k] <= pivot;
    SeqSort.JoinAroundPivot(a3, low, p, high + 1);
    SeqSort.SameOutsideTrans(a0, a1, a2, low, high + 1, low, p, low, high + 1);
    SeqSort.SameOutsideTrans(a0, a2, a3, low, high + 1, p + 1, high + 1, low, high + 1);
  }

}

=== FILE: merge_sort_trace.dfy ===
/** The instrumented merge sort of the visualizer: a top-down merge sort over
    slices that keeps a full-length working array in step with the merges and
    records a snapshot at the start, at every head-to-head comparison, after
    every merge and at the end. Merge sort never swaps, so its swap counter
    stays 0.

    The closures of the source share three mutable variables (the working
    array, the comparison counter and the trace); here they travel together
    as one `State` value that every step takes and gives back. */
module MergeSortTrace {
  import SeqSort
  import opened Trace

  /** The shared variables of one run: the working array the snapshots copy,
      the comparison counter and the trace so far. */
  datatype State = State(working: seq<int>, comparisons: nat, steps: seq<Step>)

  /** `addStep`: appends a snapshot of the working array and the live
      counters (the swap counter of merge sort is the constant 0). */
  function AddStep(st: State, description: Label, kind: StepKind, highlighted: Option<seq<int>>): State {
    st.(steps := st.steps + [Step(st.working, st.comparisons, 0, description, kind, highlighted)])
  }

  /** The write-back loop of `merge`: `values` is copied into `working`
      from position `start` on. */
  function WriteBack(working: seq<int>, start: nat, values: seq<int>): (w: seq<int>)
    requires start + |values| <= |working|
    ensures |w| == |working|
    ensures WrittenAt(w, start, values)
    ensures SeqSort.SameOutside(working, w, start, start + |values|)
  {
    working[..start] + values + working[start + |values|..]
  }

  /** `w` holds `values` from position `start` on. */
  predicate WrittenAt(w: seq<int>, start: nat, values: seq<int>) {
    start + |values| <= |w| && forall j :: 0 <= j < |values| ==> w[start + j] == values[j]
  }

  /** A run held at `start` holds its two halves side by side. */
  lemma WrittenSplit(w: seq<int>, start: nat, values: seq<int>, mid: nat)
    requires WrittenAt(w, start, values) && mid <= |values|
    ensures WrittenAt(w, start, values[..mid]) && WrittenAt(w, start + mid, values[mid..])
  {
    forall j | 0 <= j < |values| - mid
      ensures w[start + mid + j] == values[mid..][j]
    {
      assert w[start + (mid + j)] == values[mid + j];
    }
  }

  /** Two runs held side by side make one run. */
  lemma WrittenJoin(w: seq<int>, start: nat, left: seq<int>, split: nat, right: seq<int>)
    requires split == start + |left|
    requires WrittenAt(w, start, left) && WrittenAt(w, split, right)
    ensures WrittenAt(w, start, left + right)
  {
    forall j | |left| <= j < |left + right|
      ensures w[start + j] == (left + right)[j]
    {
      assert w[split + (j - |left|)] == right[j - |left|];
    }
  }

  /** A change outside a run leaves the run where it is. */
  lemma WrittenFrame(w: seq<int>, v: seq<int>, start: nat, values: seq<int>, lo: int, hi: int)
    requires WrittenAt(w, start, values) && SeqSort.SameOutside(w, v, lo, hi)
    requires start + |values| <= lo || hi <= start
    ensures WrittenAt(v, start, values)
  {
    forall j | 0 <= j < |values|
      ensures v[start + j] == values[j]
    {
      assert w[start + j] == values[j];
    }
  }

  /** The run written at `start`, as a slice. */
  lemma WrittenSlice(w: seq<int>, start: nat, values: seq<int>)
    requires WrittenAt(w, start, values)
    ensures w[start..start + |values|] == values
  {
  }

  /** Every snapshot of `steps` is a rearrangement of the elements `m`. */
  predicate SnapshotsOf(steps: seq<Step>, m: multiset<int>) {
    forall k :: 0 <= k < |steps| ==> multiset(steps[k].arr) == m
  }

  /** A trace that grows by snapshots of the same elements keeps showing
      only rearrangements of them. */
  lemma SnapshotsGrow(a: seq<Step>, b: seq<Step>, m: multiset<int>)
    requires SnapshotsOf(a, m) && Extends(a, b)
    requires forall k :: |a| <= k < |b| ==> multiset(b[k].arr) == m
    ensures SnapshotsOf(b, m)
  {
    forall k | 0 <= k < |a|
      ensures multiset(b[k].arr) == m
    {
      assert b[k] == b[..|a|][k];
    }
  }

  /** What holds of every state between the starting and the closing step of
      a run over an input of length `n`: the trace is consistent, it holds one
      comparison step per comparison, no swap or partition step, and exactly
      one `complete` step, the starting one. */
  predicate Valid(st: State, n: nat) {
    && |st.working| == n
    && Consistent(st.steps, n, st.comparisons, 0)
    && Count(st.steps, Compare) == st.comparisons
    && Count(st.steps, Swap) == 0
    && Count(st.steps, Partition) == 0
    && Count(st.steps, Complete) == 1
  }

  /** Appending a comparison step right after counting the comparison, or a
      merge step, keeps a state valid, and only appends to its trace. */
  lemma AddStepValid(st: State, n: nat, description: Label, kind: StepKind, highlighted: Option<seq<int>>)
    requires |st.working| == n
    requires Consistent(st.steps, n, st.comparisons, 0)
    requires Count(st.steps, Swap) == 0 && Count(st.steps, Partition) == 0 && Count(st.steps, Complete) == 1
    requires kind == Compare ==> Count(st.steps, Compare) + 1 == st.comparisons
    requires kind == Merge ==> Count(st.steps, Compare) == st.comparisons
    requires kind == Compare || kind == Merge
    requires HighlightsWithin(Step(st.working, st.comparisons, 0, description, kind, highlighted), n)
    ensures Valid(AddStep(st, description, kind, highlighted), n)
    ensures Extends(st.steps, AddStep(st, description, kind, highlighted).steps)
    ensures Count(AddStep(st, description, kind, highlighted).steps, Merge)
         == Count(st.steps, Merge) + (if kind == Merge then 1 else 0)
  {
    var step := Step(st.working, st.comparisons, 0, description, kind, highlighted);
    AppendConsistent(st.steps, n, st.comparisons, 0, step, st.comparisons, 0);
    CountPush(st.steps, step, Compare);
    CountPush(st.steps, step, Swap);
    CountPush(st.steps, step, Partition);
    CountPush(st.steps, step, Complete);
    CountPush(st.steps, step, Merge);
    assert (st.steps + [step])[..|st.steps|] == st.steps;
  }

  /** `cur` is `st` after `k` comparisons of one merge loop: each counted
      and recorded, nothing else recorded, the working array untouched. */
  predicate Compared(st: State, cur: State, k: nat) {
    && Valid(cur, |st.working|) && Extends(st.steps, cur.steps)
    && cur.working == st.working
    && cur.comparisons == st.comparisons + k
    && |cur.steps| == |st.steps| + k
    && Count(cur.steps, Merge) == Count(st.steps, Merge)
  }

  /** Counting one more comparison and recording it, with two highlighted
      positions inside the array, is one more round of `Compared`. */
  lemma CompareStep(st: State, cur: State, k: nat, description: Label, highlighted: seq<int>)
    requires Compared(st, cur, k)
    requires forall m :: 0 <= m < |highlighted| ==> 0 <= highlighted[m] < |st.working|
    ensures Compared(st, AddStep(cur.(comparisons := cur.comparisons + 1), description, Compare, Some(highlighted)), k + 1)
  {
    var counted := cur.(comparisons := cur.comparisons + 1);
    AddStepValid(counted, |st.working|, description, Compare, Some(highlighted));
    ExtendsTrans(st.steps, cur.steps, AddStep(counted, description, Compare, Some(highlighted)).steps);
  }

  /** `step` is a snapshot of `working` recording a comparison of a position
      of the left run, which sits at `startIdx` in the working array, with a
      position of the right run, which follows it: absolute positions, not
      positions within the runs. */
  predicate ComparesAcross(step: Step, working: seq<int>, startIdx: nat, nl: nat, nr: nat) {
    && step.arr == working
    && step.kind == Compare
    && step.highlighted.Some? && |step.highlighted.value| == 2
    && startIdx <= step.highlighted.value[0] < startIdx + nl
    && startIdx + nl <= step.highlighted.value[1] < startIdx + nl + nr
  }

  /** Every step of `steps` from position `from` on is such a comparison. */
  predicate ComparesFrom(steps: seq<Step>, from: nat, working: seq<int>, startIdx: nat, nl: nat, nr: nat) {
    && from <= |steps|
    && forall k :: from <= k < |steps| ==> ComparesAcross(steps[k], working, startIdx, nl, nr)
  }

  /** Recording the comparison of the left run's element `i` with the right
      run's element `j`, at their absolute positions, keeps the suffix made
      of such comparisons. */
  lemma ComparesPush(cur: State, from: nat, startIdx: nat, nl: nat, nr: nat, i: nat, j: nat, description: Label)
    requires ComparesFrom(cur.steps, from, cur.working, startIdx, nl, nr)
    requires i < nl && j < nr
    ensures ComparesFrom(AddStep(cur.(comparisons := cur.comparisons + 1), description, Compare,
                                 Some([startIdx + i, startIdx + nl + j])).steps, from, cur.working, startIdx, nl, nr)
  {
  }

  /** Counts the comparison of the left run's element `i` with the right
      run's element `j` and records it at their absolute positions: the trace
      so far is kept and exactly one compare step, a snapshot of the working
      array with the new count, is appended. */
  method RecordCompare(st: State, cur: State, startIdx: nat, nl: nat, nr: nat, i: nat, j: nat, description: Label)
    returns (cur': State)
    requires startIdx + nl + nr <= |st.working|
    requires i < nl && j < nr
    requires Compared(st, cur, i + j)
    requires ComparesFrom(cur.steps, |st.steps|, st.working, startIdx, nl, nr)
    ensures cur'.comparisons == cur.comparisons + 1
    ensures cur'.steps == cur.steps + [Step(st.working, cur.comparisons + 1, 0, description, Compare, Some([startIdx + i, startIdx + nl + j]))]
    ensures Compared(st, cur', i + j + 1)
    ensures ComparesFrom(cur'.steps, |st.steps|, st.working, startIdx, nl, nr)
  {
    var highlighted := [startIdx + i, startIdx + nl + j];
    CompareStep(st, cur, i + j, description, highlighted);
    ComparesPush(cur, |st.steps|, startIdx, nl, nr, i, j, description);
    cur' := AddStep(cur.(comparisons := cur.comparisons + 1), description, Compare, Some(highlighted));
  }

  /** The head-to-head loop of `merge(left, right, startIdx)`: every round
      counts one comparison, records it in a snapshot of the working array
      with the two absolute positions compared, and emits the smaller head (the left one on a tie). It stops
      as soon as one run is exhausted, having compared once per element
      emitted, and what it emitted followed by both leftovers is the stable
      merge of the runs. */
  method HeadToHead(left: seq<int>, right: seq<int>, startIdx: nat, st: State)
    returns (i: nat, j: nat, emitted: seq<int>, cur: State)
    requires startIdx + |left + right| <= |st.working|
    requires Valid(st, |st.working|)
    ensures i <= |left| && j <= |right| && (i == |left| || j == |right|)
    ensures emitted + left[i..] + right[j..] == SeqSort.Merge(left, right)
    ensures |left| > 0 && |right| > 0 ==> i < |left| || j < |right|
    ensures |left| == 0 || |right| == 0 ==> i + j == 0
    ensures Compared(st, cur, i + j)
    ensures ComparesFrom(cur.steps, |st.steps|, st.working, startIdx, |left|, |right|)
  {
    i, j, emitted, cur := 0, 0, [], st;
    SeqSort.EmittedStart(left, right);
    assert st.steps[..|st.steps|] == st.steps;
    while i < |left| && j < |right|
      invariant SeqSort.Emitted(left, right, i, j, emitted)
      invariant |left| > 0 && |right| > 0 ==> i < |left| || j < |right|
      invariant |left| == 0 || |right| == 0 ==> i + j == 0
      invariant Compared(st, cur, i + j)
      invariant ComparesFrom(cur.steps, |st.steps|, st.working, startIdx, |left|, |right|)
      decreases |left| - i + |right| - j
    {
      cur := RecordCompare(st, cur, startIdx, |left|, |right|, i, j, Comparing(left[i], right[j]));
      SeqSort.MergeRound(left, right, i, j, emitted);
      if left[i] <= right[j] {
        emitted := emitted + [left[i]];
        i := i + 1;
      } else {
        emitted := emitted + [right[j]];
        j := j + 1;
      }
    }
    SeqSort.MergeLeftovers(left, right, i, j, emitted);
  }

  /** `merge(left, right, startIdx)`: the head-to-head loop, the leftovers
      appended without counting, the merged run written into the working
      array at `startIdx`, and one `merge` step highlighting the range
      written. Every step before that one compares a position of the left
      run with one of the right run, in absolute positions.

      What comes out is the stable merge of the two runs; the working array
      changes at `startIdx..startIdx + |merged|` only; a merge with an empty
      run compares nothing, otherwise it compares at least as often as the
      shorter run is long and at most once less than both together. */
  method MergeRun(left: seq<int>, right: seq<int>, startIdx: nat, st: State) returns (merged: seq<int>, st': State)
    requires WrittenAt(st.working, startIdx, left + right)
    requires Valid(st, |st.working|)
    requires SnapshotsOf(st.steps, multiset(st.working))
    ensures merged == SeqSort.Merge(left, right)
    ensures |st'.working| == |st.working|
    ensures WrittenAt(st'.working, startIdx, merged)
    ensures SeqSort.SameOutside(st.working, st'.working, startIdx, startIdx + |merged|)
    ensures multiset(st'.working) == multiset(st.working)
    ensures SnapshotsOf(st'.steps, multiset(st.working))
    ensures |left| == 0 || |right| == 0 ==> st'.comparisons == st.comparisons
    ensures |left| > 0 && |right| > 0 ==>
      && st.comparisons + (if |left| < |right| then |left| else |right|) <= st'.comparisons
      && st'.comparisons < st.comparisons + |left + right|
    ensures Valid(st', |st.working|) && Extends(st.steps, st'.steps)
    ensures |st'.steps| == |st.steps| + (st'.comparisons - st.comparisons) + 1
    ensures Count(st'.steps, Merge) == Count(st.steps, Merge) + 1
    ensures ComparesFrom(st'.steps[..|st'.steps| - 1], |st.steps|, st.working, startIdx, |left|, |right|)
    ensures st'.steps[|st'.steps| - 1]
         == Step(st'.working, st'.comparisons, 0, MergedSubarray, Merge, Some(Range(startIdx, |merged|)))
  {
    var i, j, emitted, cur := HeadToHead(left, right, startIdx, st);
    merged := emitted + left[i..] + right[j..];
    var written := cur.(working := WriteBack(cur.working, startIdx, merged));
    AddStepValid(written, |st.working|, MergedSubarray, Merge, Some(Range(startIdx, |merged|)));
    st' := AddStep(written, MergedSubarray, Merge, Some(Range(startIdx, |merged|)));
    ExtendsTrans(st.steps, cur.steps, st'.steps);
    assert st'.steps[..|st'.steps| - 1] == cur.steps;
    MergeKeepsElements(st.working, st'.working, startIdx, left, right, merged);
    MergeSnapshots(st, cur, st', startIdx, |left|, |right|);
  }

  /** Writing the merge of two runs over the range that held them keeps
      the working array's elements. */
  lemma MergeKeepsElements(w: seq<int>, w': seq<int>, startIdx: nat, left: seq<int>, right: seq<int>, merged: seq<int>)
    requires WrittenAt(w, startIdx, left + right) && merged == SeqSort.Merge(left, right)
    requires WrittenAt(w', startIdx, merged)
    requires SeqSort.SameOutside(w, w', startIdx, startIdx + |merged|)
    ensures multiset(w') == multiset(w)
  {
    assert |merged| == |left + right|;
    WrittenSlice(w, startIdx, left + right);
    WrittenSlice(w', startIdx, merged);
    SeqSort.MergeMultiset(left, right);
    SpliceKeepsElements(w, w', startIdx, startIdx + |merged|, left + right, merged);
  }

  /** Overwriting a range with a rearrangement of what it held keeps the
      elements of the whole array. */
  lemma SpliceKeepsElements(w: seq<int>, w': seq<int>, lo: nat, hi: nat, before: seq<int>, after: seq<int>)
    requires lo <= hi <= |w| && SeqSort.SameOutside(w, w', lo, hi)
    requires w[lo..hi] == before && w'[lo..hi] == after && multiset(after) == multiset(before)
    ensures multiset(w') == multiset(w)
  {
    SeqSort.SpliceMultiset(w, w', lo, hi);
  }

  /** After a merge every snapshot still shows the elements of the working
      array: the comparisons show the array as it was, the merge step the
      array with the merged run written back. */
  lemma MergeSnapshots(st: State, cur: State, st': State, startIdx: nat, nl: nat, nr: nat)
    requires SnapshotsOf(st.steps, multiset(st.working)) && Extends(st.steps, cur.steps)
    requires ComparesFrom(cur.steps, |st.steps|, st.working, startIdx, nl, nr)
    requires |st'.steps| == |cur.steps| + 1 && st'.steps[..|cur.steps|] == cur.steps
    requires multiset(st'.steps[|cur.steps|].arr) == multiset(st.working)
    ensures SnapshotsOf(st'.steps, multiset(st.working))
  {
    forall k | |st.steps| <= k < |st'.steps|
      ensures multiset(st'.steps[k].arr) == multiset(st.working)
    {
      if k < |cur.steps| {
        assert st'.steps[k] == st'.steps[..|cur.steps|][k];
        assert ComparesAcross(cur.steps[k], st.working, startIdx, nl, nr);
      }
    }
    ExtendsTrans(st.steps, cur.steps, st'.steps);
    SnapshotsGrow(st.steps, st'.steps, multiset(st.working));
  }

  /** `st'` continues `st` with only `lo..hi` of the working array changed:
      the array keeps its length and its elements, every snapshot of the
      trace still shows them, the trace only grows and stays valid, and the
      comparison counter never goes back. */
  predicate Continues(st: State, st': State, lo: int, hi: int) {
    && SeqSort.SameOutside(st.working, st'.working, lo, hi)
    && multiset(st'.working) == multiset(st.working)
    && SnapshotsOf(st'.steps, multiset(st.working))
    && Valid(st', |st.working|) && Extends(st.steps, st'.steps)
    && st.comparisons <= st'.comparisons
  }

  /** Continuing over one range and then another is continuing over a range
      covering both. */
  lemma ContinuesTrans(st: State, mid: State, st': State, lo: int, hi: int, lo': int, hi': int, lo'': int, hi'': int)
    requires Continues(st, mid, lo, hi) && Continues(mid, st', lo', hi')
    requires lo'' <= lo && hi <= hi'' && lo'' <= lo' && hi' <= hi''
    ensures Continues(st, st', lo'', hi'')
  {
    SeqSort.SameOutsideTrans(st.working, mid.working, st'.working, lo, hi, lo', hi', lo'', hi'');
    ExtendsTrans(st.steps, mid.steps, st'.steps);
  }

  /** `mergeSortRecursive(arr, startIdx)`: slices of length at most one come
      back untouched and unrecorded; longer ones are split at
      floor(length / 2), both halves sorted (the right one at
      `startIdx + mid`), then merged at `startIdx`.

      The slice is the part of the working array at `startIdx` on entry. It
      returns the merge sort of `arr`, which ends up written at
      `startIdx..startIdx + |arr|` of the working array; nothing outside that
      range changes and the array keeps its elements. The trace only grows,
      by exactly `|arr| - 1` merge steps, and every snapshot in it still
      shows a rearrangement of the working array's elements. */
  method SortRange(arr: seq<int>, startIdx: nat, st: State) returns (values: seq<int>, st': State)
    requires WrittenAt(st.working, startIdx, arr)
    requires Valid(st, |st.working|)
    requires SnapshotsOf(st.steps, multiset(st.working))
    ensures values == SeqSort.MergeSort(arr)
    ensures |arr| <= 1 ==> st' == st
    ensures WrittenAt(st'.working, startIdx, values)
    ensures Continues(st, st', startIdx, startIdx + |arr|)
    ensures |arr| >= 1 ==> Count(st'.steps, Merge) == Count(st.steps, Merge) + |arr| - 1
    decreases |arr|, 2
  {
    if |arr| <= 1 {
      assert st.steps[..|st.steps|] == st.steps;
      return arr, st;
    }
    var mid := |arr| / 2;
    assert SeqSort.MergeSort(arr) == SeqSort.Merge(SeqSort.MergeSort(arr[..mid]), SeqSort.MergeSort(arr[mid..]));
    var left, right, halves := SortHalves(arr, startIdx, st);
    values, st' := MergeRun(left, right, startIdx, halves);
    assert |values| == |arr|;
    assert Continues(halves, st', startIdx, startIdx + |arr|);
    ContinuesTrans(st, halves, st', startIdx, startIdx + |arr|, startIdx, startIdx + |arr|, startIdx, startIdx + |arr|);
  }

  /** The two recursive calls of `mergeSortRecursive(arr, startIdx)` for a
      slice of two or more: the left half sorted in place at `startIdx`, then
      the right half at `startIdx + mid`. Afterwards the range holds the two
      sorted halves side by side, nothing outside it has changed, and the
      trace has grown by the halves' merge steps only. */
  method SortHalves(arr: seq<int>, startIdx: nat, st: State) returns (left: seq<int>, right: seq<int>, st': State)
    requires |arr| >= 2
    requires WrittenAt(st.working, startIdx, arr)
    requires Valid(st, |st.working|)
    requires SnapshotsOf(st.steps, multiset(st.working))
    ensures left == SeqSort.MergeSort(arr[..|arr| / 2]) && right == SeqSort.MergeSort(arr[|arr| / 2..])
    ensures WrittenAt(st'.working, startIdx, left + right)
    ensures Continues(st, st', startIdx, startIdx + |arr|)
    ensures Count(st'.steps, Merge) == Count(st.steps, Merge) + |arr| - 2
    decreases |arr|, 1
  {
    var mid := |arr| / 2;
    WrittenSplit(st.working, startIdx, arr, mid);
    var afterLeft;
    left, afterLeft := SortRange(arr[..mid], startIdx, st);
    right, st' := SortRightHalf(arr, startIdx, st, left, afterLeft);
  }

  /** The second recursive call of `mergeSortRecursive(arr, startIdx)`, once
      the left half is sorted in place: the right half, untouched by the
      left call, is sorted at `startIdx + mid`, next to the sorted left
      half. */
  method SortRightHalf(arr: seq<int>, startIdx: nat, st: State, left: seq<int>, afterLeft: State)
    returns (right: seq<int>, st': State)
    requires |arr| >= 2
    requires WrittenAt(st.working, startIdx + |arr| / 2, arr[|arr| / 2..])
    requires Valid(st, |st.working|)
    requires SnapshotsOf(st.steps, multiset(st.working))
    requires left == SeqSort.MergeSort(arr[..|arr| / 2])
    requires WrittenAt(afterLeft.working, startIdx, left)
    requires Continues(st, afterLeft, startIdx, startIdx + |arr| / 2)
    requires Count(afterLeft.steps, Merge) == Count(st.steps, Merge) + |arr| / 2 - 1
    ensures right == SeqSort.MergeSort(arr[|arr| / 2..])
    ensures WrittenAt(st'.working, startIdx, left + right)
    ensures Continues(st, st', startIdx, startIdx + |arr|)
    ensures Count(st'.steps, Merge) == Count(st.steps, Merge) + |arr| - 2
    decreases |arr|, 0
  {
    var mid := |arr| / 2;
    WrittenFrame(st.working, afterLeft.working, startIdx + mid, arr[mid..], startIdx, startIdx + mid);
    right, st' := SortRange(arr[mid..], startIdx + mid, afterLeft);
    assert |left| == mid && |right| == |arr| - mid;
    WrittenFrame(afterLeft.working, st'.working, startIdx, left, startIdx + mid, startIdx + |arr|);
    WrittenJoin(st'.working, startIdx, left, startIdx + mid, right);
    ContinuesTrans(st, afterLeft, st', startIdx, startIdx + mid, startIdx + mid, startIdx + |arr|, startIdx, startIdx + |arr|);
  }

  /** The instrumented `mergeSort(arr)`: a `complete` step "Starting", the
      recursive sort over a working copy of the input, and a closing
      `complete` step.

      The returned array is the merge sort of the input, hence sorted and a
      permutation of it. The trace opens with "Starting" (a snapshot of the
      input) and closes with "Complete" (a snapshot of the sorted output with
      the final totals), which are its only `complete` steps; every snapshot
      shows a rearrangement of the input; the counters
      never decrease and never pass the totals; there is one `compare` step
      per comparison, no swap at all and `|input| - 1` merges. An input of
      length 0 or 1 compares nothing and records only the two `complete`
      steps. */
  method MergeSortRun(input: seq<int>) returns (r: SortingData)
    ensures r.arr == SeqSort.MergeSort(input)
    ensures SeqSort.Sorted(r.arr) && multiset(r.arr) == multiset(input)
    ensures r.swaps == 0
    ensures |r.steps| >= 2
    ensures r.steps[0] == Step(input, 0, 0, StartingMergeSort, Complete, None)
    ensures r.steps[|r.steps| - 1] == Step(r.arr, r.comparisons, 0, MergeSortComplete, Complete, None)
    ensures Consistent(r.steps, |input|, r.comparisons, r.swaps)
    ensures SnapshotsOf(r.steps, multiset(input))
    ensures Count(r.steps, Compare) == r.comparisons
    ensures Count(r.steps, Swap) == 0 && Count(r.steps, Partition) == 0
    ensures Count(r.steps, Complete) == 2
    ensures |input| >= 1 ==> Count(r.steps, Merge) == |input| - 1
    ensures |input| <= 1 ==>
      r.comparisons == 0 &&
      r.steps == [Step(input, 0, 0, StartingMergeSort, Complete, None),
                  Step(input, 0, 0, MergeSortComplete, Complete, None)]
  {
    var sorted, done := StartAndSort(input);
    SeqSort.MergeSortSorts(input);
    var last := Step(done.working, done.comparisons, 0, MergeSortComplete, Complete, None);
    AppendConsistent(done.steps, |input|, done.comparisons, 0, last, done.comparisons, 0);
    CountPush(done.steps, last, Compare);
    CountPush(done.steps, last, Swap);
    CountPush(done.steps, last, Partition);
    CountPush(done.steps, last, Complete);
    CountPush(done.steps, last, Merge);
    assert (done.steps + [last])[..|done.steps|] == done.steps;
    SnapshotsGrow(done.steps, done.steps + [last], multiset(input));
    r := SortingData(sorted, done.comparisons, 0, done.steps + [last]);
    assert r.steps[0] == done.steps[0];
  }

  /** `mergeSort(arr)` up to its closing step: the "Starting" snapshot of the
      input, then the recursive sort of a working copy of it. The working
      array ends up holding the merge sort of the input; the trace opens with
      "Starting", is valid, shows only rearrangements of the input, and holds
      `|input| - 1` merge steps; an input of length 0 or 1 records nothing
      more. */
  method StartAndSort(input: seq<int>) returns (sorted: seq<int>, done: State)
    ensures |done.steps| >= 1 && done.steps[0] == Step(input, 0, 0, StartingMergeSort, Complete, None)
    ensures |input| <= 1 ==> done == State(input, 0, [Step(input, 0, 0, StartingMergeSort, Complete, None)])
    ensures |input| >= 1 ==> Count(done.steps, Merge) == |input| - 1
    ensures Valid(done, |input|)
    ensures SnapshotsOf(done.steps, multiset(input))
    ensures done.working == sorted
    ensures sorted == SeqSort.MergeSort(input)
  {
    var first := Step(input, 0, 0, StartingMergeSort, Complete, None);
    var st := State(input, 0, [first]);
    CountSingle(first, Compare);
    CountSingle(first, Swap);
    CountSingle(first, Partition);
    CountSingle(first, Complete);
    CountSingle(first, Merge);
    assert WrittenAt(input, 0, input);
    sorted, done := SortRange(input, 0, st);
    WrittenSlice(done.working, 0, sorted);
    assert done.working == done.working[0..|input|];
    assert done.steps[..1] == [first];
  }
}

=== FILE: quick_sort_trace.dfy ===
/** The instrumented quick sort of the visualizer: recursive quick sort with
    the Lomuto partition (the last element of the range is the pivot), which
    counts one comparison per element scanned and one swap per exchange, and
    records a snapshot at the start, at every partition, comparison and swap,
    and at the end.

    The source takes the working copy that its snapshots show before the
    sort starts and never writes to it again: the partitions rearrange a
    second copy, the one that is returned. So every snapshot of a quick-sort
    trace shows the unsorted input. The model keeps this: the snapshot array
    is the parameter `input`, and the array being sorted lives in `State`. */
module QuickSortTrace {
  import SeqSort
  import opened Trace
  import opened Lomuto

  /** The shared variables of one run: the array being sorted, the two
      counters and the trace so far. */
  datatype State = State(arr: seq<int>, comparisons: nat, swaps: nat, steps: seq<Step>)

  /** `addStep`: appends a snapshot of the (never written) working copy,
      which is the input, with the live counters. */
  function AddStep(input: seq<int>, st: State, description: Label, kind: StepKind, highlighted: seq<int>): State {
    st.(steps := st.steps + [Step(input, st.comparisons, st.swaps, description, kind, Some(highlighted))])
  }

  /** The trace recorded over `input` with the live counters at
      `comparisons` and `swaps`, read from its last step back: every snapshot
      is the input, every highlight a position of it, and no step's counters
      are ahead of the ones after it (or of the live ones, for the last). */
  predicate Snapshots(steps: seq<Step>, input: seq<int>, comparisons: nat, swaps: nat)
    decreases |steps|
  {
    if |steps| == 0 then true
    else
      var last := steps[|steps| - 1];
      && last.arr == input && HighlightsWithin(last, |input|)
      && last.comparisons <= comparisons && last.swaps <= swaps
      && Snapshots(steps[..|steps| - 1], input, last.comparisons, last.swaps)
  }

  /** A trace of snapshots of the input is consistent, and every one of its
      snapshots is the input. */
  lemma {:induction false} SnapshotsConsistent(steps: seq<Step>, input: seq<int>, comparisons: nat, swaps: nat)
    requires Snapshots(steps, input, comparisons, swaps)
    ensures Consistent(steps, |input|, comparisons, swaps)
    ensures forall k :: 0 <= k < |steps| ==> steps[k].arr == input
    decreases |steps|
  {
    if |steps| > 0 {
      var prefix, last := steps[..|steps| - 1], steps[|steps| - 1];
      SnapshotsConsistent(prefix, input, last.comparisons, last.swaps);
      AppendConsistent(prefix, |input|, last.comparisons, last.swaps, last, comparisons, swaps);
      assert prefix + [last] == steps;
    }
  }

  /** What holds of every state between the starting and the closing step of
      a run over `input`: the array keeps its length, the trace holds
      snapshots of the input, one comparison step per comparison and one swap
      step per swap, no merge step, and exactly one `complete` step, the
      starting one. */
  predicate Valid(st: State, input: seq<int>) {
    && |st.arr| == |input|
    && Snapshots(st.steps, input, st.comparisons, st.swaps)
    && Count(st.steps, Compare) == st.comparisons
    && Count(st.steps, Swap) == st.swaps
    && Count(st.steps, Merge) == 0
    && Count(st.steps, Complete) == 1
  }

  /** Appending a partition step, or a comparison or swap step right after
      counting it, to a state that was valid before the count keeps it valid
      and only appends to its trace. */
  lemma AddStepValid(input: seq<int>, prev: State, st: State, description: Label, kind: StepKind, highlighted: seq<int>)
    requires Valid(prev, input)
    requires st.steps == prev.steps && |st.arr| == |prev.arr|
    requires kind == Compare || kind == Swap || kind == Partition
    requires st.comparisons == prev.comparisons + (if kind == Compare then 1 else 0)
    requires st.swaps == prev.swaps + (if kind == Swap then 1 else 0)
    requires forall m :: 0 <= m < |highlighted| ==> 0 <= highlighted[m] < |input|
    ensures Valid(AddStep(input, st, description, kind, highlighted), input)
    ensures Extends(st.steps, AddStep(input, st, description, kind, highlighted).steps)
    ensures Count(AddStep(input, st, description, kind, highlighted).steps, Partition)
         == Count(st.steps, Partition) + (if kind == Partition then 1 else 0)
  {
    var step := Step(input, st.comparisons, st.swaps, description, kind, Some(highlighted));
    var steps := st.steps + [step];
    assert steps[..|st.steps|] == st.steps;
    assert steps[|steps| - 1] == step;
    if |st.steps| > 0 {
      var last := st.steps[|st.steps| - 1];
      assert Snapshots(st.steps[..|st.steps| - 1], input, last.comparisons, last.swaps);
    }
    assert Snapshots(st.steps, input, st.comparisons, st.swaps);
    CountPush(st.steps, step, Compare);
    CountPush(st.steps, step, Swap);
    CountPush(st.steps, step, Merge);
    CountPush(st.steps, step, Complete);
    CountPush(st.steps, step, Partition);
  }

  /** The number of scan swaps of a Lomuto partition of `s` around `x`: the
      elements at most `x` that come after the first element above it. Before
      that element the boundary `i` is always `j - 1`, so the source skips the
      swap; after it every element at most `x` is exchanged with the first
      element above. */
  function Displaced(s: seq<int>, x: int): (d: nat)
    ensures d <= SeqSort.CountAtMost(s, x)
    ensures SeqSort.AllAtMost(s, x) ==> d == 0
  {
    if |s| == 0 then 0
    else if s[0] <= x then Displaced(s[1..], x)
    else SeqSort.CountAtMost(s[1..], x)
  }

  /** Scanning one more element: it is displaced exactly when it is at most
      the pivot and some element before it was above. */
  lemma {:induction false} DisplacedPush(s: seq<int>, y: int, x: int)
    ensures Displaced(s + [y], x)
         == Displaced(s, x) + (if y <= x && SeqSort.CountAtMost(s, x) < |s| then 1 else 0)
    decreases |s|
  {
    if |s| == 0 {
      assert [] + [y] == [y];
      assert [y][1..] == [];
    } else {
      assert (s + [y])[1..] == s[1..] + [y];
      assert (s + [y])[0] == s[0];
      if s[0] <= x {
        DisplacedPush(s[1..], y, x);
      } else {
        SeqSort.CountAtMostPush(s[1..], y, x);
      }
    }
  }

  /** Scanning the element at `j` displaces it exactly when it is at most
      the pivot and the boundary is not `j - 1`, that is, when some scanned
      element before it was above the pivot. */
  lemma ScanCounts(orig: seq<int>, low: int, high: int, j: int)
    requires 0 <= low <= j < high < |orig|
    ensures Displaced(orig[low..j + 1], orig[high])
         == Displaced(orig[low..j], orig[high])
            + (if orig[j] <= orig[high] && SeqSort.CountAtMost(orig[low..j], orig[high]) != j - low then 1 else 0)
  {
    assert orig[low..j + 1] == orig[low..j] + [orig[j]];
    DisplacedPush(orig[low..j], orig[j], orig[high]);
    SeqSort.CountAtMostBound(orig[low..j], orig[high]);
  }

  /** Since `st0`, the trace of `cur` has only grown, by comparison and
      swap steps, and is still valid. */
  predicate Follows(input: seq<int>, st0: State, cur: State) {
    && Valid(cur, input) && Extends(st0.steps, cur.steps)
    && Count(cur.steps, Partition) == Count(st0.steps, Partition)
  }

  /** Counts a comparison of the element `x` at `j` with the pivot at
      `high` and records it: the trace so far is kept and one compare step,
      carrying the new count, is appended. */
  method RecordComparison(input: seq<int>, st0: State, cur: State, j: int, high: int, x: int, pivot: int)
    returns (next: State)
    requires Follows(input, st0, cur) && 0 <= j < |input| && 0 <= high < |input|
    ensures next.arr == cur.arr && next.comparisons == cur.comparisons + 1 && next.swaps == cur.swaps
    ensures next.steps == cur.steps + [Step(input, next.comparisons, next.swaps, ComparingWithPivot(x, pivot), Compare, Some([j, high]))]
    ensures Follows(input, st0, next)
  {
    var counted := cur.(comparisons := cur.comparisons + 1);
    AddStepValid(input, cur, counted, ComparingWithPivot(x, pivot), Compare, [j, high]);
    next := AddStep(input, counted, ComparingWithPivot(x, pivot), Compare, [j, high]);
    ExtendsTrans(st0.steps, cur.steps, next.steps);
  }

  /** Exchanges the elements at `a` and `b`, counts the swap and records it
      as `description`: the trace so far is kept and one swap step, carrying
      the new count, is appended. */
  method RecordSwap(input: seq<int>, st0: State, cur: State, a: int, b: int, description: Label)
    returns (next: State)
    requires Follows(input, st0, cur) && 0 <= a < |input| && 0 <= b < |input|
    ensures next.arr == SeqSort.Swap(cur.arr, a, b)
    ensures next.comparisons == cur.comparisons && next.swaps == cur.swaps + 1
    ensures next.steps == cur.steps + [Step(input, next.comparisons, next.swaps, description, Swap, Some([a, b]))]
    ensures Follows(input, st0, next)
  {
    var swapped := cur.(arr := SeqSort.Swap(cur.arr, a, b), swaps := cur.swaps + 1);
    AddStepValid(input, cur, swapped, description, Swap, [a, b]);
    next := AddStep(input, swapped, description, Swap, [a, b]);
    ExtendsTrans(st0.steps, cur.steps, next.steps);
  }

  /** The counter and trace side of the loop state after scanning `low..j`:
      one comparison counted and recorded per element scanned and one swap
      per displaced element, nothing else recorded. */
  predicate ScannedTrace(input: seq<int>, st0: State, cur: State, low: int, high: int, j: int)
    requires 0 <= low <= j <= high < |st0.arr|
  {
    && cur.comparisons == st0.comparisons + (j - low)
    && cur.swaps == st0.swaps + Displaced(st0.arr[low..j], st0.arr[high])
    && Follows(input, st0, cur)
  }

  /** The loop state of `partition(arr, low, high)` after scanning `low..j`;
      `st0` is the state once the partition step is recorded. */
  predicate Scanned(input: seq<int>, st0: State, cur: State, low: int, high: int, i: int, j: int) {
    && ScannedArray(st0.arr, cur.arr, low, high, i, j)
    && ScannedTrace(input, st0, cur, low, high, j)
  }

  /** One round of the scan at `j`: count and record the comparison with the
      pivot; when the element is at most the pivot move the boundary and, if
      the boundary is not `j` itself, exchange the two and count and record
      the swap. */
  method ScanRound(input: seq<int>, st0: State, cur: State, low: int, high: int, i: int, j: int)
    returns (i': int, cur': State)
    requires Scanned(input, st0, cur, low, high, i, j) && j < high
    ensures Scanned(input, st0, cur', low, high, i', j + 1)
  {
    var pivot := st0.arr[high];
    var x := cur.arr[j];
    ScanArrayRound(st0.arr, cur.arr, low, high, i, j);
    assert x == st0.arr[j];
    ScanCounts(st0.arr, low, high, j);
    var compared := RecordComparison(input, st0, cur, j, high, x, pivot);
    var effect := ScanEffect(cur.arr, i, j, pivot);
    i' := if x <= pivot then i + 1 else i;
    if x <= pivot && i' != j {
      cur' := RecordSwap(input, st0, compared, i', j, Swapped(cur.arr[i'], x));
    } else {
      cur' := compared;
    }
    assert effect == (i', cur'.arr);
  }

  /** `partition(arr, low, high)` for `low < high`: records the partition
      step, scans `low..high - 1` against the pivot `arr[high]`, then puts
      the pivot at `i + 1` with an unconditional exchange, counted and
      recorded as a swap, and returns `i + 1`.

      The pivot ends at the returned position `p`, which is `low` plus the
      number of scanned elements at most the pivot; everything before it in
      the range is at most the pivot and everything after it above; only the
      range is rearranged. The scan counts `high - low` comparisons and one
      swap per displaced element, and the pivot placement one more. An
      already partitioned range (every scanned element at most the pivot) is
      left as it is. */
  method PartitionRun(input: seq<int>, st: State, low: int, high: int) returns (p: int, st': State)
    requires Valid(st, input)
    requires 0 <= low < high < |st.arr|
    ensures low <= p <= high && p == low + SeqSort.CountAtMost(st.arr[low..high], st.arr[high])
    ensures |st'.arr| == |st.arr| && st'.arr[p] == st.arr[high]
    ensures forall k :: low <= k < p ==> st'.arr[k] <= st.arr[high]
    ensures forall k :: p < k <= high ==> st.arr[high] < st'.arr[k]
    ensures SeqSort.SameOutside(st.arr, st'.arr, low, high + 1)
    ensures multiset(st'.arr) == multiset(st.arr)
    ensures SeqSort.AllAtMost(st.arr[low..high], st.arr[high]) ==> st'.arr == st.arr
    ensures st'.comparisons == st.comparisons + (high - low)
    ensures st'.swaps == st.swaps + Displaced(st.arr[low..high], st.arr[high]) + 1
    ensures Valid(st', input) && Extends(st.steps, st'.steps)
    ensures Count(st'.steps, Partition) == Count(st.steps, Partition) + 1
  {
    var pivot := st.arr[high];
    AddStepValid(input, st, st, Partitioning(pivot), Partition, [high]);
    var st0 := AddStep(input, st, Partitioning(pivot), Partition, [high]);
    p, st' := ScanAndPlace(input, st0, low, high);
    ExtendsTrans(st.steps, st0.steps, st'.steps);
  }

  /** The body of `partition(arr, low, high)` after the partition step is
      recorded in `st0`: the scan, then the pivot exchanged into `i + 1`.
      The array side is that of `PartitionRun`; the trace only grows, by
      comparison and swap steps. */
  method ScanAndPlace(input: seq<int>, st0: State, low: int, high: int) returns (p: int, st': State)
    requires Valid(st0, input)
    requires 0 <= low < high < |st0.arr|
    ensures low <= p <= high && p == low + SeqSort.CountAtMost(st0.arr[low..high], st0.arr[high])
    ensures |st'.arr| == |st0.arr| && st'.arr[p] == st0.arr[high]
    ensures forall k :: low <= k < p ==> st'.arr[k] <= st0.arr[high]
    ensures forall k :: p < k <= high ==> st0.arr[high] < st'.arr[k]
    ensures SeqSort.SameOutside(st0.arr, st'.arr, low, high + 1)
    ensures multiset(st'.arr) == multiset(st0.arr)
    ensures SeqSort.AllAtMost(st0.arr[low..high], st0.arr[high]) ==> st'.arr == st0.arr
    ensures st'.comparisons == st0.comparisons + (high - low)
    ensures st'.swaps == st0.swaps + Displaced(st0.arr[low..high], st0.arr[high]) + 1
    ensures Follows(input, st0, st')
  {
    var i, cur := Scan(input, st0, low, high);
    PlacePivot(st0.arr, cur.arr, low, high, i);
    p := i + 1;
    st' := RecordSwap(input, st0, cur, p, high, PlacedPivot(st0.arr[high], p));
  }

  /** The scan loop of `partition(arr, low, high)`, `j` running from `low`
      up to `high - 1`, starting with the boundary `i` at `low - 1`. */
  method Scan(input: seq<int>, st0: State, low: int, high: int) returns (i: int, cur: State)
    requires Valid(st0, input)
    requires 0 <= low < high < |st0.arr|
    ensures Scanned(input, st0, cur, low, high, i, high)
  {
    i, cur := low - 1, st0;
    assert st0.arr[low..low] == [];
    assert st0.steps[..|st0.steps|] == st0.steps;
    var j := low;
    while j < high
      invariant Scanned(input, st0, cur, low, high, i, j)
      decreases high - j
    {
      i, cur := ScanRound(input, st0, cur, low, high, i, j);
      j := j + 1;
    }
  }

  /** `quickSortRecursive(arr, low, high)`: a range of at most one element
      is left alone; otherwise partition it and sort the two sides of the
      pivot.

      Only the range is rearranged and it ends sorted. A range that is
      already sorted is the quadratic case: every partition finds the pivot
      largest, so the array is left as it is, `Pairs(m)` = `m(m - 1)/2` comparisons are
      counted for a range of `m` elements, and one swap per partition, the
      pivot exchanged with itself. */
  method QuickSortRec(input: seq<int>, st: State, low: int, high: int) returns (st': State)
    requires Valid(st, input)
    requires low < high ==> 0 <= low && high < |st.arr|
    ensures Valid(st', input) && Extends(st.steps, st'.steps)
    ensures low >= high ==> st' == st
    ensures SeqSort.SameOutside(st.arr, st'.arr, low, high + 1)
    ensures multiset(st'.arr) == multiset(st.arr)
    ensures SeqSort.SortedBetween(st'.arr, low, high + 1)
    ensures st.comparisons <= st'.comparisons && st.swaps <= st'.swaps
    ensures low < high && SeqSort.SortedBetween(st.arr, low, high + 1) ==>
      && st'.arr == st.arr
      && st'.comparisons == st.comparisons + Pairs(high - low + 1)
      && st'.swaps == st.swaps + (high - low)
    decreases high - low
  {
    if low >= high {
      return st;
    }
    var pivot := st.arr[high];
    var p, s1 := PartitionRun(input, st, low, high);
    var s2 := QuickSortRec(input, s1, low, p - 1);
    var s3 := QuickSortRec(input, s2, p + 1, high);
    st' := s3;
    JoinSides(st.arr, s1.arr, s2.arr, s3.arr, low, p, high);
    ExtendsTrans(st.steps, s1.steps, s2.steps);
    ExtendsTrans(st.steps, s2.steps, s3.steps);
    if SeqSort.SortedBetween(st.arr, low, high + 1) {
      SortedPivotIsMax(st.arr, low, high);
      assert p == high && s1.arr == st.arr;
    }
  }

  /** The number of pairs among `m` elements: the pairs with the last one,
      plus the pairs among the rest. */
  function Pairs(m: nat): nat
  {
    if m == 0 then 0 else (m - 1) + Pairs(m - 1)
  }

  /** The pairs among `m` elements number `m(m - 1)/2`. */
  lemma {:induction false} PairsClosedForm(m: nat)
    ensures Pairs(m) == m * (m - 1) / 2
  {
    if m > 0 {
      PairsClosedForm(m - 1);
      assert m * (m - 1) == 2 * (m - 1) + (m - 1) * (m - 2);
    }
  }

  /** Appending the closing step to a valid state gives a consistent trace
      of snapshots of the input with two `complete` steps. */
  lemma CloseTrace(input: seq<int>, st: State, last: Step)
    requires Valid(st, input)
    requires last == Step(input, st.comparisons, st.swaps, QuickSortComplete, Complete, None)
    ensures Consistent(st.steps + [last], |input|, st.comparisons, st.swaps)
    ensures forall k :: 0 <= k < |st.steps + [last]| ==> (st.steps + [last])[k].arr == input
    ensures Count(st.steps + [last], Compare) == st.comparisons
    ensures Count(st.steps + [last], Swap) == st.swaps
    ensures Count(st.steps + [last], Merge) == 0 && Count(st.steps + [last], Complete) == 2
  {
    var steps := st.steps + [last];
    assert steps[..|st.steps|] == st.steps;
    CountPush(st.steps, last, Compare);
    CountPush(st.steps, last, Swap);
    CountPush(st.steps, last, Merge);
    CountPush(st.steps, last, Complete);
    SnapshotsConsistent(steps, input, st.comparisons, st.swaps);
  }

  /** `quickSort(arr)`: records the starting step, sorts a copy of the input
      over the whole range `0..|input| - 1` and records the closing step.

      The result is a sorted permutation of the input (so, by
      `SeqSort.SortedUnique`, the merge sort's result too);
      every snapshot shows the unsorted input; the trace holds one comparison
      step per comparison and one swap step per swap; a sorted input costs
      `Pairs(n)` = `n(n - 1)/2` comparisons and `n - 1` swaps. */
  method QuickSortRun(input: seq<int>) returns (r: SortingData)
    ensures SeqSort.Sorted(r.arr) && multiset(r.arr) == multiset(input)
    ensures |r.steps| >= 2
    ensures r.steps[0] == Step(input, 0, 0, StartingQuickSort, Complete, None)
    ensures r.steps[|r.steps| - 1] == Step(input, r.comparisons, r.swaps, QuickSortComplete, Complete, None)
    ensures Consistent(r.steps, |input|, r.comparisons, r.swaps)
    ensures forall k :: 0 <= k < |r.steps| ==> r.steps[k].arr == input
    ensures Count(r.steps, Compare) == r.comparisons && Count(r.steps, Swap) == r.swaps
    ensures Count(r.steps, Merge) == 0 && Count(r.steps, Complete) == 2
    ensures |input| <= 1 ==>
      r.comparisons == 0 && r.swaps == 0 &&
      r.steps == [Step(input, 0, 0, StartingQuickSort, Complete, None),
                  Step(input, 0, 0, QuickSortComplete, Complete, None)]
    ensures SeqSort.Sorted(input) && |input| >= 1 ==>
      r.comparisons == Pairs(|input|) && r.swaps == |input| - 1
  {
    var done := SortWhole(input);
    var last := Step(input, done.comparisons, done.swaps, QuickSortComplete, Complete, None);
    CloseTrace(input, done, last);
    var first := Step(input, 0, 0, StartingQuickSort, Complete, None);
    assert done.steps[..1] == [first];
    assert done.steps[0] == done.steps[..1][0] == first;
    r := SortingData(done.arr, done.comparisons, done.swaps, done.steps + [last]);
    assert r.steps[0] == done.steps[0];
  }

  /** The part of `quickSort(arr)` before the closing step: records the
      starting step and sorts a copy of the input over its whole range. The
      array ends as the sorted input; the trace starts with the starting step
      and is nothing more for an input of at most one element; a sorted input
      costs `Pairs(n)` comparisons and `n - 1` swaps. */
  method SortWhole(input: seq<int>) returns (done: State)
    ensures Valid(done, input)
    ensures Extends([Step(input, 0, 0, StartingQuickSort, Complete, None)], done.steps)
    ensures done.arr == SeqSort.MergeSort(input)
    ensures SeqSort.Sorted(done.arr) && multiset(done.arr) == multiset(input)
    ensures |input| <= 1 ==> done == State(input, 0, 0, [Step(input, 0, 0, StartingQuickSort, Complete, None)])
    ensures SeqSort.Sorted(input) && |input| >= 1 ==>
      done.comparisons == Pairs(|input|) && done.swaps == |input| - 1
  {
    var first := Step(input, 0, 0, StartingQuickSort, Complete, None);
    var st := State(input, 0, 0, [first]);
    assert [first][..0] == [];
    CountSingle(first, Compare);
    CountSingle(first, Swap);
    CountSingle(first, Merge);
    CountSingle(first, Complete);
    done := QuickSortRec(input, st, 0, |input| - 1);
    assert input == input[0..|input|] && Pairs(1) == 0;
    SeqSort.SortedBetweenSlice(input, 0, |input|);
    assert done.arr == done.arr[0..|input|];
    SeqSort.SortedBetweenSlice(done.arr, 0, |input|);
    SeqSort.MergeSortSorts(input);
    SeqSort.SortedUnique(done.arr, SeqSort.MergeSort(input));
  }
}

=== FILE: replay_cursor.dfy ===
/** The replay controls of the animation panel: a cursor into the step trace
    of the sort on display, and whether auto-play is on. Every handler is a
    transition of the pair; `n` is the number of steps of the trace shown. */
module ReplayCursor {
  import opened Trace

  /** The current step index and the playing flag. */
  datatype Cursor = Cursor(step: int, playing: bool)

  /** The cursor points at a step of a trace of `n` steps, or at 0 when the
      trace is empty (the index the panel starts from). */
  predicate InRange(c: Cursor, n: nat) {
    0 <= c.step && (c.step == 0 || c.step < n)
  }

  /** `handleNext`: moves one step on unless the cursor is at the last step
      (or the trace is empty); auto-play is left alone. */
  function HandleNext(c: Cursor, n: nat): (r: Cursor)
    ensures r.playing == c.playing
    ensures r.step == c.step + 1 <==> c.step < n - 1
    ensures c.step >= n - 1 ==> r == c
  {
    if c.step < n - 1 then c.(step := c.step + 1) else c
  }

  /** `handlePrevious`: moves one step back unless the cursor is at 0. */
  function HandlePrevious(c: Cursor): (r: Cursor)
    ensures r.playing == c.playing
    ensures r.step == c.step - 1 <==> c.step > 0
    ensures c.step <= 0 ==> r == c
  {
    if c.step > 0 then c.(step := c.step - 1) else c
  }

  /** `handleReset`: back to the first step, auto-play off. */
  function HandleReset(c: Cursor): (r: Cursor)
    ensures r.step == 0 && !r.playing
  {
    Cursor(0, false)
  }

  /** `handlePlay`: rewinds to the first step when the cursor is at (or past)
      the last one, and toggles auto-play. */
  function HandlePlay(c: Cursor, n: nat): (r: Cursor)
    ensures r.playing == !c.playing
    ensures c.step >= n - 1 ==> r.step == 0
    ensures c.step < n - 1 ==> r.step == c.step
  {
    Cursor(if c.step >= n - 1 then 0 else c.step, !c.playing)
  }

  /** The auto-play timer: it is only armed in step-by-step mode, while
      playing, over a non-empty trace; when it fires it moves one step on,
      or stops playing at the last step. */
  function AutoPlayTick(c: Cursor, n: nat, stepByStep: bool): (r: Cursor)
    ensures !(stepByStep && c.playing && n > 0) ==> r == c
    ensures stepByStep && c.playing && n > 0 ==>
      if c.step < n - 1 then r == Cursor(c.step + 1, true) else r == Cursor(c.step, false)
  {
    if stepByStep && c.playing && n > 0 then
      if c.step < n - 1 then c.(step := c.step + 1) else c.(playing := false)
    else c
  }

  /** One user action or timer event. */
  datatype Command = NextPressed | PreviousPressed | ResetPressed | PlayPressed | TimerFired

  /** The transition of one command. */
  function Apply(cmd: Command, c: Cursor, n: nat, stepByStep: bool): Cursor {
    match cmd
    case NextPressed => HandleNext(c, n)
    case PreviousPressed => HandlePrevious(c)
    case ResetPressed => HandleReset(c)
    case PlayPressed => HandlePlay(c, n)
    case TimerFired => AutoPlayTick(c, n, stepByStep)
  }

  /** The cursor after a sequence of commands, applied in order. */
  function Replay(cmds: seq<Command>, c: Cursor, n: nat, stepByStep: bool): Cursor
    decreases |cmds|
  {
    if |cmds| == 0 then c else Replay(cmds[1..], Apply(cmds[0], c, n, stepByStep), n, stepByStep)
  }

  /** Every command keeps the cursor on a step of the trace. */
  lemma ApplyInRange(cmd: Command, c: Cursor, n: nat, stepByStep: bool)
    requires InRange(c, n)
    ensures InRange(Apply(cmd, c, n, stepByStep), n)
  {
  }

  /** So does any sequence of them: from a cursor on the trace, no
      combination of next, previous, reset, play and timer events leaves it. */
  lemma {:induction false} ReplayInRange(cmds: seq<Command>, c: Cursor, n: nat, stepByStep: bool)
    requires InRange(c, n)
    ensures InRange(Replay(cmds, c, n, stepByStep), n)
    decreases |cmds|
  {
    if |cmds| > 0 {
      ApplyInRange(cmds[0], c, n, stepByStep);
      ReplayInRange(cmds[1..], Apply(cmds[0], c, n, stepByStep), n, stepByStep);
    }
  }

  /** Previous undoes next wherever next moves. */
  lemma PreviousUndoesNext(c: Cursor, n: nat)
    requires 0 <= c.step < n - 1
    ensures HandlePrevious(HandleNext(c, n)) == c
  {
  }

  /** Next undoes previous wherever previous moves, on the trace. */
  lemma NextUndoesPrevious(c: Cursor, n: nat)
    requires 0 < c.step <= n - 1
    ensures HandleNext(HandlePrevious(c), n) == c
  {
  }

  /** Pressing next `k` times from a step on the trace lands `k` steps on,
      stopping at the last step. */
  lemma {:induction false} NextRepeated(c: Cursor, n: nat, k: nat)
    requires n > 0 && 0 <= c.step <= n - 1
    ensures Replay(seq(k, _ => NextPressed), c, n, false)
         == c.(step := if c.step + k <= n - 1 then c.step + k else n - 1)
    decreases k
  {
    var cmds := seq(k, _ => NextPressed);
    if k > 0 {
      assert cmds[0] == NextPressed;
      assert cmds[1..] == seq(k - 1, _ => NextPressed);
      NextRepeated(HandleNext(c, n), n, k - 1);
    }
  }

  /** `k` timer events in step-by-step mode. */
  function Ticks(c: Cursor, n: nat, k: nat): Cursor
    decreases k
  {
    if k == 0 then c else Ticks(AutoPlayTick(c, n, true), n, k - 1)
  }

  /** Auto-play walks the trace one step per timer event and stops playing
      one event after reaching the last step; from then on nothing moves. */
  lemma {:induction false} AutoPlayRunsToEnd(c: Cursor, n: nat, k: nat)
    requires c.playing && 0 <= c.step <= n - 1
    ensures k <= n - 1 - c.step ==> Ticks(c, n, k) == Cursor(c.step + k, true)
    ensures k > n - 1 - c.step ==> Ticks(c, n, k) == Cursor(n - 1, false)
    decreases k
  {
    if k > 0 {
      if c.step < n - 1 {
        AutoPlayRunsToEnd(Cursor(c.step + 1, true), n, k - 1);
      } else {
        StoppedStaysPut(Cursor(c.step, false), n, k - 1);
      }
    }
  }

  /** Once auto-play is off, timer events change nothing. */
  lemma {:induction false} StoppedStaysPut(c: Cursor, n: nat, k: nat)
    requires !c.playing
    ensures Ticks(c, n, k) == c
    decreases k
  {
    if k > 0 {
      StoppedStaysPut(AutoPlayTick(c, n, true), n, k - 1);
    }
  }

  /** Playing after the end replays the whole trace: the first event after
      play sets the cursor on step 1, and `n` events end on the last step
      with auto-play off. */
  lemma PlayAtEndReplays(c: Cursor, n: nat)
    requires !c.playing && n >= 2 && c.step == n - 1
    ensures HandlePlay(c, n) == Cursor(0, true)
    ensures Ticks(HandlePlay(c, n), n, 1) == Cursor(1, true)
    ensures Ticks(HandlePlay(c, n), n, n) == Cursor(n - 1, false)
  {
    AutoPlayRunsToEnd(Cursor(0, true), n, 1);
    AutoPlayRunsToEnd(Cursor(0, true), n, n);
  }

  /** What the panel shows: the step under the cursor, or, as a fallback,
      the whole result record. */
  datatype View = AtStep(shown: Step) | WholeRecord(record: SortingData)

  /** `getStepData`: the step under the cursor when the trace has one there;
      otherwise (empty trace, or an index with no step) the whole record. The
      index is not clamped. */
  function GetStepData(data: SortingData, step: int): (v: View)
    ensures v.AtStep? <==> 0 <= step < |data.steps|
    ensures v.AtStep? ==> v.shown == data.steps[step]
    ensures v.WholeRecord? ==> v.record == data
  {
    if |data.steps| == 0 then WholeRecord(data)
    else if 0 <= step < |data.steps| then AtStep(data.steps[step])
    else WholeRecord(data)
  }

  /** Driving the panel from step 0 over a non-empty trace, with any sequence
      of commands and no new run in between, always shows a step, never the
      fallback record. A new run can change that: see `ShorterRunFallsBack`. */
  lemma ControlsAlwaysShowAStep(data: SortingData, cmds: seq<Command>, playing: bool, stepByStep: bool)
    requires |data.steps| > 0
    ensures GetStepData(data, Replay(cmds, Cursor(0, playing), |data.steps|, stepByStep).step).AtStep?
  {
    ReplayInRange(cmds, Cursor(0, playing), |data.steps|, stepByStep);
  }

  /** What can happen to the panel: one of its controls, or a finished run of
      `handleRunAlgorithms`, whose trace of `steps` steps replaces the one on
      display. */
  datatype Event = Control(cmd: Command) | RunFinished(steps: nat)

  /** The panel between events: the cursor and the length of the trace on
      display. */
  datatype Panel = Panel(cursor: Cursor, n: nat)

  /** One event. A finished run installs its trace and leaves the cursor where
      it was: the step index belongs to the visualizer, and neither the run
      handler nor the panel resets it. */
  function OnEvent(e: Event, p: Panel, stepByStep: bool): Panel {
    match e
    case Control(cmd) => p.(cursor := Apply(cmd, p.cursor, p.n, stepByStep))
    case RunFinished(steps) => p.(n := steps)
  }

  /** The panel after a sequence of events, applied in order. */
  function Session(events: seq<Event>, p: Panel, stepByStep: bool): Panel
    decreases |events|
  {
    if |events| == 0 then p else Session(events[1..], OnEvent(events[0], p, stepByStep), stepByStep)
  }

  /** The controls `cmds`, pressed (or fired) in order, as events. */
  function Controls(cmds: seq<Command>): (es: seq<Event>)
    ensures |es| == |cmds|
    ensures forall k :: 0 <= k < |cmds| ==> es[k] == Control(cmds[k])
  {
    seq(|cmds|, k requires 0 <= k < |cmds| => Control(cmds[k]))
  }

  /** A session is its first part followed by its second. */
  lemma {:induction false} SessionAppend(a: seq<Event>, b: seq<Event>, p: Panel, stepByStep: bool)
    ensures Session(a + b, p, stepByStep) == Session(b, Session(a, p, stepByStep), stepByStep)
    decreases |a|
  {
    if |a| > 0 {
      assert (a + b)[0] == a[0];
      assert (a + b)[1..] == a[1..] + b;
      SessionAppend(a[1..], b, OnEvent(a[0], p, stepByStep), stepByStep);
    } else {
      assert a + b == b;
    }
  }

  /** Without a new run the trace length stays put and the cursor moves as
      the controls alone move it. */
  lemma {:induction false} ControlsReplay(cmds: seq<Command>, c: Cursor, n: nat, stepByStep: bool)
    ensures Session(Controls(cmds), Panel(c, n), stepByStep) == Panel(Replay(cmds, c, n, stepByStep), n)
    decreases |cmds|
  {
    if |cmds| > 0 {
      assert Controls(cmds)[1..] == Controls(cmds[1..]);
      ControlsReplay(cmds[1..], Apply(cmds[0], c, n, stepByStep), n, stepByStep);
    }
  }

  /** No event ever takes the step index below 0. */
  lemma {:induction false} SessionStepNonNegative(events: seq<Event>, p: Panel, stepByStep: bool)
    requires p.cursor.step >= 0
    ensures Session(events, p, stepByStep).cursor.step >= 0
    decreases |events|
  {
    if |events| > 0 {
      SessionStepNonNegative(events[1..], OnEvent(events[0], p, stepByStep), stepByStep);
    }
  }

  /** The fallback of `getStepData` is reachable. On the first run's trace of
      `m` steps, pressing next `m - 1` times reaches its last step; a second
      run with a shorter trace keeps that index, which has no step in the new
      trace, so the panel shows the whole record. */
  lemma ShorterRunFallsBack(data: SortingData, m: nat, stepByStep: bool)
    requires 0 < |data.steps| < m
    ensures var events := [RunFinished(m)] + Controls(seq(m - 1, _ => NextPressed)) + [RunFinished(|data.steps|)];
            var p := Session(events, Panel(Cursor(0, false), 0), stepByStep);
            p.n == |data.steps| && p.cursor.step == m - 1 && GetStepData(data, p.cursor.step).WholeRecord?
  {
    var nexts := seq(m - 1, _ => NextPressed);
    var first := [RunFinished(m)];
    var start := Panel(Cursor(0, false), 0);
    SessionAppend(first + Controls(nexts), [RunFinished(|data.steps|)], start, stepByStep);
    SessionAppend(first, Controls(nexts), start, stepByStep);
    assert Session(first, start, stepByStep) == Panel(Cursor(0, false), m);
    ControlsReplay(nexts, Cursor(0, false), m, stepByStep);
    NextRepeated(Cursor(0, false), m, m - 1);
    assert Replay(nexts, Cursor(0, false), m, false) == Cursor(m - 1, false);
    ReplayIgnoresModeForNext(nexts, Cursor(0, false), m, stepByStep);
  }

  /** The mode flag only matters to the timer, so a run of next presses moves
      the cursor the same way in either mode. */
  lemma {:induction false} ReplayIgnoresModeForNext(cmds: seq<Command>, c: Cursor, n: nat, stepByStep: bool)
    requires forall k :: 0 <= k < |cmds| ==> cmds[k] == NextPressed
    ensures Replay(cmds, c, n, stepByStep) == Replay(cmds, c, n, false)
    decreases |cmds|
  {
    if |cmds| > 0 {
      ReplayIgnoresModeForNext(cmds[1..], HandleNext(c, n), n, stepByStep);
    }
  }

  /** Pressing previous `k` times walks `k` steps back, stopping at 0. */
  lemma {:induction false} PreviousRepeated(c: Cursor, n: nat, k: nat, stepByStep: bool)
    requires c.step >= 0
    ensures Replay(seq(k, _ => PreviousPressed), c, n, stepByStep)
         == c.(step := if c.step >= k then c.step - k else 0)
    decreases k
  {
    var cmds := seq(k, _ => PreviousPressed);
    if k > 0 {
      assert cmds[0] == PreviousPressed;
      assert cmds[1..] == seq(k - 1, _ => PreviousPressed);
      PreviousRepeated(HandlePrevious(c), n, k - 1, stepByStep);
    }
  }

  /** Which controls bring a cursor left past the end of a non-empty trace
      back onto it. Next and the timer leave the index where it is, so the
      panel keeps showing the whole record; reset and play rewind to the
      first step; pressing previous once per surplus step lands on the last
      step. */
  lemma BackOntoTrace(data: SortingData, c: Cursor, stepByStep: bool)
    requires 0 < |data.steps| <= c.step
    ensures GetStepData(data, HandleNext(c, |data.steps|).step).WholeRecord?
    ensures GetStepData(data, AutoPlayTick(c, |data.steps|, stepByStep).step).WholeRecord?
    ensures GetStepData(data, HandleReset(c).step) == AtStep(data.steps[0])
    ensures GetStepData(data, HandlePlay(c, |data.steps|).step) == AtStep(data.steps[0])
    ensures var back := seq(c.step - |data.steps| + 1, _ => PreviousPressed);
            GetStepData(data, Replay(back, c, |data.steps|, stepByStep).step) == AtStep(data.steps[|data.steps| - 1])
  {
    PreviousRepeated(c, |data.steps|, c.step - |data.steps| + 1, stepByStep);
  }
}

=== FILE: run_driver.dfy ===
/** Running both instrumented sorts on one generated array, as the
    visualizer's run button does. The two runs share nothing but the input,
    so they are modelled as two independent calls. */
module RunDriver {
  import SeqSort
  import opened Trace
  import MergeSortTrace
  import QuickSortTrace

  /** `handleRunAlgorithms` on the array `initial`: both results hold the
      same sorted permutation of it. The merge-sort trace closes on that
      sorted array while every quick-sort snapshot still shows `initial`;
      only quick sort counts swaps. */
  method RunAlgorithms(initial: seq<int>) returns (mergeResult: SortingData, quickResult: SortingData)
    ensures mergeResult.arr == quickResult.arr
    ensures SeqSort.Sorted(mergeResult.arr) && multiset(mergeResult.arr) == multiset(initial)
    ensures mergeResult.swaps == 0
    ensures |mergeResult.steps| >= 2 && |quickResult.steps| >= 2
    ensures mergeResult.steps[|mergeResult.steps| - 1].arr == mergeResult.arr
    ensures forall k :: 0 <= k < |quickResult.steps| ==> quickResult.steps[k].arr == initial
  {
    mergeResult := MergeSortTrace.MergeSortRun(initial);
    quickResult := QuickSortTrace.QuickSortRun(initial);
    SeqSort.SortedUnique(mergeResult.arr, quickResult.arr);
  }
}

=== FILE: seq_sort.dfy ===
/** Sortedness, the stable head-to-head merge and the floor-split merge sort
    over integer sequences. Every sort in the repository merges two runs the
    same way (the left head wins ties), so the merge is defined once here and
    the instrumented and the array-based sorts are proved equal to it. */
module SeqSort {

  /** Every element is at most every later one. */
  predicate Sorted(s: seq<int>) {
    forall i, j :: 0 <= i < j < |s| ==> s[i] <= s[j]
  }

  /** Every element of `s` is at least `x`. */
  predicate AllAtLeast(s: seq<int>, x: int) {
    forall k :: 0 <= k < |s| ==> x <= s[k]
  }

  /** Every element of `s` is at most `x`. */
  predicate AllAtMost(s: seq<int>, x: int) {
    forall k :: 0 <= k < |s| ==> s[k] <= x
  }

  /** The head-to-head merge of two runs: the smaller head is emitted first
      and, on a tie, the head of the LEFT run, which is what makes every merge
      sort of the repository stable; once one run is empty the rest of the
      other follows unchanged. */
  function Merge(l: seq<int>, r: seq<int>): (m: seq<int>)
    ensures |m| == |l| + |r|
    decreases |l| + |r|
  {
    if |l| == 0 then r
    else if |r| == 0 then l
    else if l[0] <= r[0] then [l[0]] + Merge(l[1..], r)
    else [r[0]] + Merge(l, r[1..])
  }

  /** The merge emits every element of both runs, and nothing else. */
  lemma {:induction false} MergeMultiset(l: seq<int>, r: seq<int>)
    ensures multiset(Merge(l, r)) == multiset(l) + multiset(r)
    decreases |l| + |r|
  {
    if |l| > 0 && |r| > 0 {
      if l[0] <= r[0] {
        var rest := Merge(l[1..], r);
        MergeMultiset(l[1..], r);
        HeadAndTail(l);
        assert Merge(l, r) == [l[0]] + rest;
      } else {
        var rest := Merge(l, r[1..]);
        MergeMultiset(l, r[1..]);
        HeadAndTail(r);
        assert Merge(l, r) == [r[0]] + rest;
      }
    }
  }

  /** The elements of a non-empty sequence are its head and those of its tail. */
  lemma HeadAndTail(s: seq<int>)
    requires |s| > 0
    ensures multiset(s) == multiset{s[0]} + multiset(s[1..])
  {
    assert s == [s[0]] + s[1..];
  }

  /** Top-down merge sort splitting at floor(|s| / 2), as the instrumented
      merge sort of the visualizer does. */
  function MergeSort(s: seq<int>): (r: seq<int>)
    ensures |r| == |s|
    decreases |s|
  {
    if |s| <= 1 then s
    else
      var mid := |s| / 2;
      Merge(MergeSort(s[..mid]), MergeSort(s[mid..]))
  }

  /** Merge sort returns a sorted permutation of its input. */
  lemma {:induction false} MergeSortSorts(s: seq<int>)
    ensures Sorted(MergeSort(s))
    ensures multiset(MergeSort(s)) == multiset(s)
    decreases |s|
  {
    if |s| > 1 {
      var mid := |s| / 2;
      MergeSortSorts(s[..mid]);
      MergeSortSorts(s[mid..]);
      MergeHalves(s, mid, MergeSort(s[..mid]), MergeSort(s[mid..]));
    }
  }

  /** Merging sorted arrangements of the two halves of `s` split at `mid`
      gives a sorted arrangement of `s`. */
  lemma MergeHalves(s: seq<int>, mid: int, left: seq<int>, right: seq<int>)
    requires 0 <= mid <= |s|
    requires Sorted(left) && multiset(left) == multiset(s[..mid])
    requires Sorted(right) && multiset(right) == multiset(s[mid..])
    ensures Sorted(Merge(left, right)) && multiset(Merge(left, right)) == multiset(s)
  {
    assert s == s[..mid] + s[mid..];
    MergeSorted(left, right);
    MergeMultiset(left, right);
  }

  /** A merge loop at heads `i` and `j` has emitted `emitted`: followed by
      the merge of what is left, that is the whole merge. */
  predicate Emitted(l: seq<int>, r: seq<int>, i: int, j: int, emitted: seq<int>) {
    0 <= i <= |l| && 0 <= j <= |r| && emitted + Merge(l[i..], r[j..]) == Merge(l, r)
  }

  /** A merge loop starts with nothing emitted. */
  lemma EmittedStart(l: seq<int>, r: seq<int>)
    ensures Emitted(l, r, 0, 0, [])
  {
    assert l[0..] == l && r[0..] == r;
  }

  /** Once a merge loop stops, with one run exhausted, what it emitted
      followed by the leftovers of both runs is the whole merge. */
  lemma MergeLeftovers(l: seq<int>, r: seq<int>, i: int, j: int, emitted: seq<int>)
    requires Emitted(l, r, i, j, emitted)
    requires i == |l| || j == |r|
    ensures emitted + l[i..] + r[j..] == Merge(l, r)
  {
    MergeExhausted(l[i..], r[j..]);
  }

  /** A bound on every element carries over to any sequence with the same
      elements. */
  lemma SameElementsAtLeast(m: seq<int>, s: seq<int>, x: int)
    requires multiset(m) == multiset(s)
    requires AllAtLeast(s, x)
    ensures AllAtLeast(m, x)
  {
    forall k | 0 <= k < |m|
      ensures x <= m[k]
    {
      assert m[k] in multiset(m);
      var j :| 0 <= j < |s| && s[j] == m[k];
    }
  }

  /** A sorted sequence preceded by a lower bound of all its elements is sorted. */
  lemma ConsSorted(x: int, s: seq<int>)
    requires Sorted(s) && AllAtLeast(s, x)
    ensures Sorted([x] + s)
  {
    forall i, j | 0 <= i < j < |[x] + s|
      ensures ([x] + s)[i] <= ([x] + s)[j]
    {

    }
  }

  /** Merging two sorted runs yields a sorted run. */
  lemma {:induction false} MergeSorted(l: seq<int>, r: seq<int>)
    requires Sorted(l) && Sorted(r)
    ensures Sorted(Merge(l, r))
    decreases |l| + |r|
  {
    if |l| == 0 || |r| == 0 {
    } else if l[0] <= r[0] {
      MergeSorted(l[1..], r);
      assert AllAtLeast(l[1..] + r, l[0]) by {
        forall k | 0 <= k < |l[1..] + r|
          ensures l[0] <= (l[1..] + r)[k]
        {
          if k >= |l[1..]| {
            assert r[0] <= r[k - |l[1..]|];
          }
        }
      }
      MergeMultiset(l[1..], r);
      SameElementsAtLeast(Merge(l[1..], r), l[1..] + r, l[0]);
      ConsSorted(l[0], Merge(l[1..], r));
    } else {
      MergeSorted(l, r[1..]);
      assert AllAtLeast(l + r[1..], r[0]) by {
        forall k | 0 <= k < |l + r[1..]|
          ensures r[0] <= (l + r[1..])[k]
        {
          if k < |l| {
            assert l[0] <= l[k];
          }
        }
      }
      MergeMultiset(l, r[1..]);
      SameElementsAtLeast(Merge(l, r[1..]), l + r[1..], r[0]);
      ConsSorted(r[0], Merge(l, r[1..]));
    }
  }

  /** Once one run is exhausted the merge is plain concatenation, which is the
      leftover copy that follows every merge loop. */
  lemma MergeExhausted(l: seq<int>, r: seq<int>)
    requires |l| == 0 || |r| == 0
    ensures Merge(l, r) == l + r
  {
  }

  /** One round of a merge loop over heads `i` and `j`: emitting the smaller
      head, the left one on a tie, moves the loop on. */
  lemma MergeRound(l: seq<int>, r: seq<int>, i: int, j: int, emitted: seq<int>)
    requires Emitted(l, r, i, j, emitted)
    requires i < |l| && j < |r|
    ensures l[i] <= r[j] ==> Emitted(l, r, i + 1, j, emitted + [l[i]])
    ensures r[j] < l[i] ==> Emitted(l, r, i, j + 1, emitted + [r[j]])
  {
    assert l[i..][1..] == l[i + 1..];
    assert r[j..][1..] == r[j + 1..];
  }

  /** Two sorted arrangements of the same elements are the same sequence, so
      every correct sort of an input returns one and the same output. */
  lemma {:induction false} SortedUnique(s: seq<int>, t: seq<int>)
    requires Sorted(s) && Sorted(t)
    requires multiset(s) == multiset(t)
    ensures s == t
    decreases |s|
  {
    assert |s| == |multiset(s)| == |multiset(t)| == |t|;
    if |s| > 0 {
      HeadIsLeast(s, t);
      HeadIsLeast(t, s);
      assert s == [s[0]] + s[1..];
      assert t == [t[0]] + t[1..];
      assert multiset(s[1..]) == multiset(s) - multiset{s[0]};
      assert multiset(t[1..]) == multiset(t) - multiset{t[0]};
      SortedUnique(s[1..], t[1..]);
    }
  }

  /** The head of a sorted sequence is at most any element of another with
      the same elements. */
  lemma HeadIsLeast(s: seq<int>, t: seq<int>)
    requires Sorted(t) && |s| > 0
    requires multiset(s) == multiset(t)
    ensures t[0] <= s[0]
  {
    assert s[0] in multiset(t);
    var k :| 0 <= k < |t| && t[k] == s[0];
  }

  /** Number of elements of `s` that are at most `x`: where the Lomuto scan
      leaves its boundary. */
  function CountAtMost(s: seq<int>, x: int): (c: nat)
    ensures c <= |s|
    ensures c == |s| <==> AllAtMost(s, x)
  {
    if |s| == 0 then 0
    else
      assert s == [s[0]] + s[1..];
      assert AllAtMost(s, x) <==> s[0] <= x && AllAtMost(s[1..], x) by {
        if s[0] <= x && AllAtMost(s[1..], x) {
          forall k | 0 <= k < |s|
            ensures s[k] <= x
          {
            if k > 0 {
              assert s[k] == s[1..][k - 1];
            }
          }
        }
      }
      (if s[0] <= x then 1 else 0) + CountAtMost(s[1..], x)
  }

  /** The elements of `s` at positions `lo..hi` are in ascending order. */
  predicate SortedBetween(s: seq<int>, lo: int, hi: int) {
    forall i, j :: 0 <= lo <= i < j < hi <= |s| ==> s[i] <= s[j]
  }

  /** `w` and `v` have the same length and agree outside `lo..hi`. */
  predicate SameOutside(w: seq<int>, v: seq<int>, lo: int, hi: int) {
    |w| == |v| && forall k :: 0 <= k < |w| && !(lo <= k < hi) ==> v[k] == w[k]
  }

  /** Agreeing outside a range is transitive, and widening the range keeps it. */
  lemma SameOutsideTrans(u: seq<int>, v: seq<int>, w: seq<int>, lo: int, hi: int, lo': int, hi': int, lo'': int, hi'': int)
    requires SameOutside(u, v, lo, hi) && SameOutside(v, w, lo', hi')
    requires lo'' <= lo && hi <= hi'' && lo'' <= lo' && hi' <= hi''
    ensures SameOutside(u, w, lo'', hi'')
  {
  }

  /** Sorted on a range is sorted on its slice, and conversely. */
  lemma SortedBetweenSlice(s: seq<int>, lo: int, hi: int)
    requires 0 <= lo <= hi <= |s|
    ensures SortedBetween(s, lo, hi) <==> Sorted(s[lo..hi])
  {
    if SortedBetween(s, lo, hi) {
      forall i, j | 0 <= i < j < hi - lo
        ensures s[lo..hi][i] <= s[lo..hi][j]
      {
        assert s[lo..hi][i] == s[lo + i] && s[lo..hi][j] == s[lo + j];
      }
    }
    if Sorted(s[lo..hi]) {
      forall i, j | lo <= i < j < hi
        ensures s[i] <= s[j]
      {
        assert s[i] == s[lo..hi][i - lo] && s[j] == s[lo..hi][j - lo];
      }
    }
  }

  /** A range split by a pivot at `p`: everything before it is at most the
      pivot, everything after it above, and both sides sorted. Then the whole
      range `lo..hi` is sorted. */
  lemma JoinAroundPivot(s: seq<int>, lo: int, p: int, hi: int)
    requires 0 <= lo <= p < hi <= |s|
    requires SortedBetween(s, lo, p) && SortedBetween(s, p + 1, hi)
    requires forall k :: lo <= k < p ==> s[k] <= s[p]
    requires forall k :: p < k < hi ==> s[p] < s[k]
    ensures SortedBetween(s, lo, hi)
  {
  }

  /** A bound on the elements of a range carries over when the range is
      rearranged and nothing outside it changes. */
  lemma RangeBound(s: seq<int>, t: seq<int>, lo: int, hi: int, x: int, atMost: bool)
    requires 0 <= lo <= hi <= |s|
    requires SameOutside(s, t, lo, hi) && multiset(s) == multiset(t)
    requires atMost ==> forall k :: lo <= k < hi ==> s[k] <= x
    requires !atMost ==> forall k :: lo <= k < hi ==> x < s[k]
    ensures atMost ==> forall k :: lo <= k < hi ==> t[k] <= x
    ensures !atMost ==> forall k :: lo <= k < hi ==> x < t[k]
  {
    assert s[..lo] == t[..lo];
    assert s[hi..] == t[hi..];
    SpliceMultiset(s, t, lo, hi);
    forall k | lo <= k < hi
      ensures atMost ==> t[k] <= x
      ensures !atMost ==> x < t[k]
    {
      assert t[lo..hi][k - lo] == t[k];
      assert t[k] in multiset(s[lo..hi]);
      var m :| 0 <= m < hi - lo && s[lo..hi][m] == t[k];
      assert s[lo + m] == t[k];
    }
  }

  /** Pushing one element counts it when it is at most `x`. */
  lemma {:induction false} CountAtMostPush(s: seq<int>, y: int, x: int)
    ensures CountAtMost(s + [y], x) == CountAtMost(s, x) + (if y <= x then 1 else 0)
    decreases |s|
  {
    if |s| == 0 {
      assert [] + [y] == [y];
      assert [y][1..] == [];
    } else {
      assert (s + [y])[1..] == s[1..] + [y];
      CountAtMostPush(s[1..], y, x);
    }
  }

  /** Counting at most `x` stays within the length, and reaches it exactly
      when every element is at most `x`. */
  lemma CountAtMostBound(s: seq<int>, x: int)
    ensures CountAtMost(s, x) <= |s|
    ensures CountAtMost(s, x) == |s| <==> AllAtMost(s, x)
  {
  }

  /** `s` with the elements at `a` and `b` exchanged. */
  function Swap(s: seq<int>, a: int, b: int): (r: seq<int>)
    requires 0 <= a < |s| && 0 <= b < |s|
    ensures |r| == |s| && r[a] == s[b] && r[b] == s[a]
    ensures forall k :: 0 <= k < |s| && k != a && k != b ==> r[k] == s[k]
    ensures multiset(r) == multiset(s)
  {
    s[a := s[b]][b := s[a]]
  }

  /** Once one run is exhausted, a merge loop that copies the rest of the
      other run one element at a time keeps emitting the merge. */
  lemma MergeDrain(l: seq<int>, r: seq<int>, i: int, j: int, emitted: seq<int>)
    requires Emitted(l, r, i, j, emitted)
    requires i == |l| || j == |r|
    ensures i < |l| ==> Emitted(l, r, i + 1, j, emitted + [l[i]])
    ensures j < |r| ==> Emitted(l, r, i, j + 1, emitted + [r[j]])
  {
    MergeExhausted(l[i..], r[j..]);
    if i < |l| {
      MergeExhausted(l[i + 1..], r[j..]);
      assert l[i..] == [l[i]] + l[i + 1..];
    }
    if j < |r| {
      MergeExhausted(l[i..], r[j + 1..]);
      assert r[j..] == [r[j]] + r[j + 1..];
    }
  }

  /** Two arrays that agree outside `lo..hi` and hold the same elements
      inside it hold the same elements overall, and conversely. */
  lemma SpliceMultiset(a: seq<int>, b: seq<int>, lo: int, hi: int)
    requires 0 <= lo <= hi <= |a| && SameOutside(a, b, lo, hi)
    ensures multiset(a[lo..hi]) == multiset(b[lo..hi]) <==> multiset(a) == multiset(b)
  {
    ThreeParts(a, lo, hi);
    ThreeParts(b, lo, hi);
    assert a[..lo] == b[..lo];
    assert a[hi..] == b[hi..];
    if multiset(a) == multiset(b) {
      assert multiset(a[lo..hi]) == multiset(a) - multiset(a[..lo]) - multiset(a[hi..]);
      assert multiset(b[lo..hi]) == multiset(b) - multiset(b[..lo]) - multiset(b[hi..]);
    }
  }

  /** The elements of a sequence are those before, inside and after a range. */
  lemma ThreeParts(s: seq<int>, lo: int, hi: int)
    requires 0 <= lo <= hi <= |s|
    ensures multiset(s) == multiset(s[..lo]) + multiset(s[lo..hi]) + multiset(s[hi..])
  {
    assert s == s[..lo] + s[lo..hi] + s[hi..];
  }

  /** A range that ends sorted and holds the elements it started with holds
      their merge sort. */
  lemma SortedRangeIsMergeSort(a: seq<int>, b: seq<int>, lo: int, hi: int)
    requires 0 <= lo <= hi <= |a| && SameOutside(a, b, lo, hi)
    requires multiset(a) == multiset(b) && SortedBetween(b, lo, hi)
    ensures b[lo..hi] == MergeSort(a[lo..hi])
  {
    SpliceMultiset(a, b, lo, hi);
    SortedBetweenSlice(b, lo, hi);
    MergeSortSorts(a[lo..hi]);
    SortedUnique(b[lo..hi], MergeSort(a[lo..hi]));
  }

  /** Exchanging an element with itself changes nothing. */
  lemma SwapSelf(s: seq<int>, a: int)
    requires 0 <= a < |s|
    ensures Swap(s, a, a) == s
  {
  }

  /** Sortedness of a range survives changes outside it. */
  lemma SortedBetweenFrame(s: seq<int>, t: seq<int>, lo: int, hi: int, lo': int, hi': int)
    requires SortedBetween(s, lo, hi) && SameOutside(s, t, lo', hi')
    requires hi <= lo' || hi' <= lo
    ensures SortedBetween(t, lo, hi)
  {
    forall i, j | 0 <= lo <= i < j < hi <= |t|
      ensures t[i] <= t[j]
    {
      assert t[i] == s[i] && t[j] == s[j];
    }
  }

  /** The elements of a sequence are those of its two parts. */
  lemma HalvesMultiset<T>(s: seq<T>, m: int)
    requires 0 <= m <= |s|
    ensures multiset(s) == multiset(s[..m]) + multiset(s[m..])
  {
    assert s == s[..m] + s[m..];
  }
}

=== FILE: stability.dfy ===
/** Stability of the merge and of the merge sort: run on values tagged with
    their input position, the same merge (ties to the left run) puts equal
    values in input order, and dropping the tags gives back exactly the
    untagged merge and merge sort of `SeqSort`. */
module Stability {
  import SeqSort

  /** A value together with its position in the input. */
  datatype Keyed = Keyed(value: int, origin: int)

  /** `a` comes before `b` in a stable ascending order: a smaller value, or
      the same value from an earlier input position. */
  predicate Before(a: Keyed, b: Keyed) {
    a.value < b.value || (a.value == b.value && a.origin < b.origin)
  }

  /** Ascending by value, equal values in input order. */
  predicate StablySorted(s: seq<Keyed>) {
    forall i, j :: 0 <= i < j < |s| ==> Before(s[i], s[j])
  }

  /** Every element of `s` comes after `x`. */
  predicate AllAfter(s: seq<Keyed>, x: Keyed) {
    forall k :: 0 <= k < |s| ==> Before(x, s[k])
  }

  /** Every element of `l` has an earlier origin than every element of `r`. */
  predicate OriginsBelow(l: seq<Keyed>, r: seq<Keyed>) {
    forall a, b :: 0 <= a < |l| && 0 <= b < |r| ==> l[a].origin < r[b].origin
  }

  /** Origins increase along `t`, as they do along a tagged input. */
  predicate OriginsIncreasing(t: seq<Keyed>) {
    forall i, j :: 0 <= i < j < |t| ==> t[i].origin < t[j].origin
  }

  /** The input tagged with its positions. */
  function Tag(s: seq<int>): (t: seq<Keyed>)
    ensures |t| == |s|
    ensures forall k :: 0 <= k < |s| ==> t[k] == Keyed(s[k], k)
  {
    seq(|s|, k requires 0 <= k < |s| => Keyed(s[k], k))
  }

  /** The values, tags dropped. */
  function Values(t: seq<Keyed>): (v: seq<int>)
    ensures |v| == |t|
    ensures forall k :: 0 <= k < |t| ==> v[k] == t[k].value
  {
    seq(|t|, k requires 0 <= k < |t| => t[k].value)
  }

  /** The head-to-head merge on values, ties to the left run. */
  function TMerge(l: seq<Keyed>, r: seq<Keyed>): (m: seq<Keyed>)
    ensures |m| == |l| + |r|
    decreases |l| + |r|
  {
    if |l| == 0 then r
    else if |r| == 0 then l
    else if l[0].value <= r[0].value then [l[0]] + TMerge(l[1..], r)
    else [r[0]] + TMerge(l, r[1..])
  }

  /** The floor-split merge sort on values. */
  function TMergeSort(t: seq<Keyed>): (r: seq<Keyed>)
    ensures |r| == |t|
    decreases |t|
  {
    if |t| <= 1 then t
    else
      var mid := |t| / 2;
      TMerge(TMergeSort(t[..mid]), TMergeSort(t[mid..]))
  }

  /** Dropping the tags after the tagged merge gives the untagged merge. */
  lemma {:induction false} TMergeValues(l: seq<Keyed>, r: seq<Keyed>)
    ensures Values(TMerge(l, r)) == SeqSort.Merge(Values(l), Values(r))
    decreases |l| + |r|
  {
    if |l| > 0 && |r| > 0 {
      var vl, vr := Values(l), Values(r);
      ValuesTail(l);
      ValuesTail(r);
      if l[0].value <= r[0].value {
        assert TMerge(l, r) == [l[0]] + TMerge(l[1..], r);
        assert SeqSort.Merge(vl, vr) == [vl[0]] + SeqSort.Merge(vl[1..], vr);
        TMergeValues(l[1..], r);
        ValuesCons(l[0], TMerge(l[1..], r));
      } else {
        assert TMerge(l, r) == [r[0]] + TMerge(l, r[1..]);
        assert SeqSort.Merge(vl, vr) == [vr[0]] + SeqSort.Merge(vl, vr[1..]);
        TMergeValues(l, r[1..]);
        ValuesCons(r[0], TMerge(l, r[1..]));
      }
    }
  }

  /** The values of a tail are the tail of the values. */
  lemma ValuesTail(t: seq<Keyed>)
    requires |t| > 0
    ensures Values(t)[1..] == Values(t[1..])
  {
  }

  /** The values of a sequence with an element in front. */
  lemma ValuesCons(x: Keyed, t: seq<Keyed>)
    ensures Values([x] + t) == [x.value] + Values(t)
  {
  }

  /** Dropping the tags after the tagged merge sort gives the untagged one. */
  lemma {:induction false} TMergeSortValues(t: seq<Keyed>)
    ensures Values(TMergeSort(t)) == SeqSort.MergeSort(Values(t))
    decreases |t|
  {
    if |t| > 1 {
      var mid := |t| / 2;
      assert Values(t[..mid]) == Values(t)[..mid];
      assert Values(t[mid..]) == Values(t)[mid..];
      TMergeSortValues(t[..mid]);
      TMergeSortValues(t[mid..]);
      TMergeValues(TMergeSort(t[..mid]), TMergeSort(t[mid..]));
    }
  }

  /** The tagged merge emits every element of both runs, and nothing else. */
  lemma {:induction false} TMergeMultiset(l: seq<Keyed>, r: seq<Keyed>)
    ensures multiset(TMerge(l, r)) == multiset(l) + multiset(r)
    decreases |l| + |r|
  {
    if |l| > 0 && |r| > 0 {
      if l[0].value <= r[0].value {
        TMergeMultiset(l[1..], r);
        assert l == [l[0]] + l[1..];
      } else {
        TMergeMultiset(l, r[1..]);
        assert r == [r[0]] + r[1..];
      }
    }
  }

  /** Coming after `x` carries over to any sequence with the same elements. */
  lemma SameElementsAfter(m: seq<Keyed>, s: seq<Keyed>, x: Keyed)
    requires multiset(m) == multiset(s) && AllAfter(s, x)
    ensures AllAfter(m, x)
  {
    forall k | 0 <= k < |m|
      ensures Before(x, m[k])
    {
      assert m[k] in multiset(s);
      var j :| 0 <= j < |s| && s[j] == m[k];
    }
  }

  /** Merging two stably sorted runs, the left one from earlier input
      positions than the right, gives a stably sorted run: on a tie the left
      head goes first, and it is the earlier one. */
  lemma {:induction false} TMergeStable(l: seq<Keyed>, r: seq<Keyed>)
    requires StablySorted(l) && StablySorted(r) && OriginsBelow(l, r)
    ensures StablySorted(TMerge(l, r))
    decreases |l| + |r|
  {
    if |l| > 0 && |r| > 0 {
      var x, rest;
      if l[0].value <= r[0].value {
        TMergeStable(l[1..], r);
        assert AllAfter(l[1..] + r, l[0]) by {
          forall k | 0 <= k < |l[1..] + r|
            ensures Before(l[0], (l[1..] + r)[k])
          {
            if k >= |l[1..]| {
              assert k - |l[1..]| == 0 || Before(r[0], r[k - |l[1..]|]);
            } else {
              assert Before(l[0], l[k + 1]);
            }
          }
        }
        TMergeMultiset(l[1..], r);
        x, rest := l[0], TMerge(l[1..], r);
        SameElementsAfter(rest, l[1..] + r, x);
      } else {
        TMergeStable(l, r[1..]);
        assert AllAfter(l + r[1..], r[0]) by {
          forall k | 0 <= k < |l + r[1..]|
            ensures Before(r[0], (l + r[1..])[k])
          {
            if k < |l| {
              assert k == 0 || Before(l[0], l[k]);
            } else {
              assert Before(r[0], r[k - |l| + 1]);
            }
          }
        }
        TMergeMultiset(l, r[1..]);
        x, rest := r[0], TMerge(l, r[1..]);
        SameElementsAfter(rest, l + r[1..], x);
      }
      assert TMerge(l, r) == [x] + rest;
    }
  }

  /** Sorting the two halves of a sequence with increasing origins keeps
      every element of the first half's result before every element of the
      second's in input order. */
  lemma HalvesOriginsBelow(t: seq<Keyed>, mid: int, left: seq<Keyed>, right: seq<Keyed>)
    requires OriginsIncreasing(t) && 0 <= mid <= |t|
    requires multiset(left) == multiset(t[..mid]) && multiset(right) == multiset(t[mid..])
    ensures OriginsBelow(left, right)
  {
    forall a, b | 0 <= a < |left| && 0 <= b < |right|
      ensures left[a].origin < right[b].origin
    {
      assert left[a] in multiset(t[..mid]);
      assert right[b] in multiset(t[mid..]);
      var i :| 0 <= i < mid && t[..mid][i] == left[a];
      var j :| 0 <= j < |t| - mid && t[mid..][j] == right[b];
      assert t[i] == left[a] && t[mid + j] == right[b];
    }
  }

  /** The tagged merge sort is a permutation. */
  lemma {:induction false} TMergeSortMultiset(t: seq<Keyed>)
    ensures multiset(TMergeSort(t)) == multiset(t)
    decreases |t|
  {
    if |t| > 1 {
      var mid := |t| / 2;
      var t1, t2 := t[..mid], t[mid..];
      var left, right := TMergeSort(t1), TMergeSort(t2);
      assert TMergeSort(t) == TMerge(left, right);
      TMergeSortMultiset(t1);
      TMergeSortMultiset(t2);
      TMergeMultiset(left, right);
      SeqSort.HalvesMultiset(t, mid);
    }
  }

  /** The tagged merge sort of a sequence with increasing origins is stably
      sorted. */
  lemma {:induction false} TMergeSortStable(t: seq<Keyed>)
    requires OriginsIncreasing(t)
    ensures StablySorted(TMergeSort(t))
    decreases |t|
  {
    if |t| > 1 {
      var mid := |t| / 2;
      var t1, t2 := t[..mid], t[mid..];
      OriginsIncreasingSlice(t, 0, mid);
      OriginsIncreasingSlice(t, mid, |t|);
      assert t[0..mid] == t1 && t[mid..|t|] == t2;
      TMergeSortStable(t1);
      TMergeSortStable(t2);
      var left, right := TMergeSort(t1), TMergeSort(t2);
      TMergeSortMultiset(t1);
      TMergeSortMultiset(t2);
      HalvesOriginsBelow(t, mid, left, right);
      TMergeStable(left, right);
      assert TMergeSort(t) == TMerge(left, right);
    }
  }

  /** Origins increase along any slice of a sequence along which they do. */
  lemma OriginsIncreasingSlice(t: seq<Keyed>, lo: int, hi: int)
    requires OriginsIncreasing(t) && 0 <= lo <= hi <= |t|
    ensures OriginsIncreasing(t[lo..hi])
  {
    forall i, j | 0 <= i < j < hi - lo
      ensures t[lo..hi][i].origin < t[lo..hi][j].origin
    {
      assert t[lo..hi][i] == t[lo + i] && t[lo..hi][j] == t[lo + j];
    }
  }

  /** The merge sort is stable. With `order` the tagged sort of the tagged
      input, position `k` of `MergeSort(s)` holds the input element at
      `order[k].origin`, every input position appears once, and equal values
      keep their input order. */
  lemma MergeSortIsStable(s: seq<int>)
    ensures var order := TMergeSort(Tag(s));
      && Values(order) == SeqSort.MergeSort(s)
      && multiset(order) == multiset(Tag(s))
      && (forall k :: 0 <= k < |order| ==>
            0 <= order[k].origin < |s| && s[order[k].origin] == order[k].value)
      && StablySorted(order)
  {
    var order := TMergeSort(Tag(s));
    TMergeSortStable(Tag(s));
    TMergeSortMultiset(Tag(s));
    TMergeSortValues(Tag(s));
    assert Values(Tag(s)) == s;
    forall k | 0 <= k < |order|
      ensures 0 <= order[k].origin < |s| && s[order[k].origin] == order[k].value
    {
      assert order[k] in multiset(Tag(s));
      var i :| 0 <= i < |s| && Tag(s)[i] == order[k];
    }
  }
}

=== FILE: trace.dfy ===
/** The step trace of the visualizer: the snapshot records an instrumented
    sort appends while it runs, and the result record it returns. */
module Trace {

  /** A value that may be absent, as an optional record field is. */
  datatype Option<T> = None | Some(value: T)

  /** The classification of a step, used downstream only for colouring. */
  datatype StepKind = Compare | Swap | Merge | Partition | Complete

  /** The human-readable description of a step. Each constructor stands for
      one template of the source, carrying the values it interpolates. */
  datatype Label =
    | StartingMergeSort
    | MergeSortComplete
    | Comparing(left: int, right: int)
    | MergedSubarray
    | StartingQuickSort
    | QuickSortComplete
    | Partitioning(pivot: int)
    | ComparingWithPivot(value: int, pivot: int)
    | Swapped(first: int, second: int)
    | PlacedPivot(pivot: int, position: int)

  /** One snapshot: a full copy of the array (the source's `array` field;
      `array` is a keyword here), the counters as of this instant, a
      description, a kind and the highlighted positions (absent for the
      starting and the closing step). */
  datatype Step = Step(
    arr: seq<int>,
    comparisons: nat,
    swaps: nat,
    description: Label,
    kind: StepKind,
    highlighted: Option<seq<int>>)

  /** The result of one instrumented run: the sorted array (`arr`, as in
      `Step`), the totals and the trace. The elapsed time is not modelled. */
  datatype SortingData = SortingData(
    arr: seq<int>,
    comparisons: nat,
    swaps: nat,
    steps: seq<Step>)

  /** The positions `start`, `start + 1`, ..., `start + len - 1`. */
  function Range(start: int, len: nat): (r: seq<int>)
    ensures |r| == len
    ensures forall k :: 0 <= k < len ==> r[k] == start + k
  {
    seq(len, k => start + k)
  }

  /** Number of steps of kind `kind`. */
  function Count(steps: seq<Step>, kind: StepKind): nat
  {
    if |steps| == 0 then 0
    else Count(steps[..|steps| - 1], kind) + (if steps[|steps| - 1].kind == kind then 1 else 0)
  }

  /** Pushing one step onto a trace counts it once, under its own kind. */
  lemma CountPush(steps: seq<Step>, step: Step, kind: StepKind)
    ensures Count(steps + [step], kind) == Count(steps, kind) + (if step.kind == kind then 1 else 0)
  {
    assert (steps + [step])[..|steps|] == steps;
  }

  /** A one-step trace counts its step under its own kind. */
  lemma CountSingle(step: Step, kind: StepKind)
    ensures Count([step], kind) == (if step.kind == kind then 1 else 0)
  {
    CountPush([], step, kind);
    assert [] + [step] == [step];
  }

  /** Every highlighted position of `step` indexes an array of length `n`. */
  predicate HighlightsWithin(step: Step, n: int) {
    match step.highlighted
    case None => true
    case Some(h) => forall k :: 0 <= k < |h| ==> 0 <= h[k] < n
  }

  /** Both counters never decrease from one step to any later one. */
  predicate CountersMonotone(steps: seq<Step>) {
    forall i, j :: 0 <= i < j < |steps| ==>
      steps[i].comparisons <= steps[j].comparisons && steps[i].swaps <= steps[j].swaps
  }

  /** The invariant of a trace under construction, for an array of length
      `n` whose counters currently stand at `comparisons` and `swaps`: every
      snapshot is a full copy, every highlight is a position of the array,
      the counters are monotone and none of them is ahead of the live ones. */
  predicate Consistent(steps: seq<Step>, n: int, comparisons: nat, swaps: nat) {
    && (forall k :: 0 <= k < |steps| ==> |steps[k].arr| == n && HighlightsWithin(steps[k], n))
    && CountersMonotone(steps)
    && (forall k :: 0 <= k < |steps| ==>
          steps[k].comparisons <= comparisons && steps[k].swaps <= swaps)
  }

  /** Appending a snapshot of the live counters keeps a trace consistent, and
      the counters may then move on. */
  lemma AppendConsistent(steps: seq<Step>, n: int, comparisons: nat, swaps: nat, step: Step, c: nat, s: nat)
    requires Consistent(steps, n, comparisons, swaps)
    requires |step.arr| == n && HighlightsWithin(step, n)
    requires comparisons <= step.comparisons <= c && swaps <= step.swaps <= s
    ensures Consistent(steps + [step], n, c, s)
  {
  }

  /** True iff `prefix` is an initial segment of `steps`: traces are append-only. */
  predicate Extends(prefix: seq<Step>, steps: seq<Step>) {
    |prefix| <= |steps| && steps[..|prefix|] == prefix
  }

  /** Append-only growth composes. */
  lemma ExtendsTrans(a: seq<Step>, b: seq<Step>, c: seq<Step>)
    requires Extends(a, b) && Extends(b, c)
    ensures Extends(a, c)
  {
    assert c[..|a|] == c[..|b|][..|a|];
  }
}
